=== FILE: README.md ===
# MVVM+C sample: scan flow, deep-link dispatch and small view models in Dafny

This project models the logic core of an iOS MVVM+Coordinator sample. The
sample's screens are built by coordinators, and each coordinator owns a
module: a view plus a view model. The model covers:

- **The QR-scan view model** (`QrScannerViewModel`). It holds a scanner state
  (initial / loading / success / fail), an info text drawn from three
  constants, a flashlight flag and one timeout timer. Successful decodes are
  delivered after a fixed delay, classified as raw data fields, one payment,
  or a payment list.
- **The scanner view's camera/file display mode** (`QrScannerView`). It is
  driven by the values the view model emits.
- **The QR-scan coordinator** (`QrScannerCoordinator`). It gates the scanner on
  camera authorisation. It maps the module's result to its own result. A
  payment list goes through a child payment picker first.
- **The tab-bar deep-link dispatcher** (`TabBarCoordinator.checkDeeplink`). It
  holds a one-shot pending action and a fixed table from URL kinds and
  home-screen shortcuts to navigations. It also covers the tab-selection and
  pop-to-root rules and the promo-landing flow it can start.
- **The promo-landing view model and coordinator**. The view model projects
  landing data to screen output and turns taps into link openings or a close.
  The coordinator wires the view model and relays its close.
- **The login validator** (`LoginViewModel.isValid`). It produces a stream of
  validity values from the latest username and password.

Every component is a pure function from a state and an event to a new state
and a list of effects. Effects include relay emissions, presentations,
completions and calls to collaborators outside the model. `Run` folds a
component over a sequence of events. The properties that span many events are
proved by induction over such sequences:

- at most one timer is scheduled;
- decoded results are delivered first in, first out, each once;
- the flashlight flag follows tap parity;
- the view stays in step with the view model;
- short of the dismiss-modals signal or a new start, a denied camera never
  presents the scanner or completes.

Time is not modelled. The timer firing and the 1000 ms post-success delay
elapsing are events (`TimerFired`, `DismissDelayElapsed`). Timers are numbered.
A firing of a timer that was invalidated or has already fired does nothing.

Some behaviours of the code that a reader might expect otherwise:

- **Repeated completion.** The code has no at-most-once guard on completion
  (`QrScannerCoordinator.CompletionNotGuarded`).
- **Timer on decode.** A payload stops the timeout and does not re-arm it
  (`QrScanFlow.NoTimeoutWhileDecoding`).
- **Unknown landing id.** It does nothing; there is no fallback screen
  (`TabBarCoordinator.UnknownLandingDoesNothing`).
- **Duplicate deep links.** The dispatcher does not suppress them; each one
  is dispatched.
- **Scanner states.** The scanner has exactly four states: initial, loading,
  success and fail.

## Model

| member | source | states |
|---|---|---|
| QrScannerViewModel.Init | MVVM+C/Sample/QR/QrScannerViewModel.swift:63-88 | the constructed view model is in `initial` with the "point the camera" text, flashlight off, nothing pending, and one timeout armed |
| QrScannerViewModel.StopTimer | MVVM+C/Sample/QR/QrScannerViewModel.swift:161-164 | the stored timer is invalidated and forgotten, no timeout stays armed, other timers and all other state are untouched |
| QrScannerViewModel.StartTimer | MVVM+C/Sample/QR/QrScannerViewModel.swift:150-159 | after starting, exactly one fresh timer is scheduled, different from the previous one, which is no longer scheduled; other state is untouched |
| QrScannerViewModel.AtMostOneTimer | MVVM+C/Sample/QR/QrScannerViewModel.swift:150-164 | under the timer invariant at most one timer is scheduled, and a timeout is armed exactly when one is |
| QrScannerViewModel.DecodeData | MVVM+C/Sample/QR/QrScannerViewModel.swift:108-112 | a payload disarms the timeout and leaves it disarmed, sets `loading` and the "processing" text, and starts decoding that payload |
| QrScannerViewModel.OnDecoded | MVVM+C/Sample/QR/QrScannerViewModel.swift:115-119 | decode success sets `success` and the "complete" text and queues the result; nothing is completed yet, and the timer is untouched |
| QrScannerViewModel.OnDecodeFailed | MVVM+C/Sample/QR/QrScannerViewModel.swift:120-123 | decode failure sets `fail` and restores the "point the camera" text, nothing else changes, and emits exactly the state and then the text |
| QrScannerViewModel.OnTimerFired | MVVM+C/Sample/QR/QrScannerViewModel.swift:166-169 | a scheduled timer firing is spent, sets `fail` with the "point the camera" text, changes nothing else, emits exactly the state and then the text, and leaves no timeout armed; a timer that is not scheduled changes nothing |
| QrScannerViewModel.Reset | MVVM+C/Sample/QR/QrScannerViewModel.swift:142-146 | reset re-arms the timeout and returns to `initial` with the "point the camera" text |
| QrScannerViewModel.ScanFromImage | MVVM+C/Sample/QR/QrScannerViewModel.swift:100-104 | scanning a picked image re-arms the timeout, shows the image and hands it to the file scanner, state and text unchanged |
| QrScannerViewModel.Classify | MVVM+C/Sample/QR/QrScannerViewModel.swift:130-138 | raw fields stay raw fields; a list of exactly one payment becomes that payment; every other list length, 0 included, stays a list; never manual input or cancel |
| QrScannerViewModel.ClassifyRoundTrip | MVVM+C/Sample/QR/QrScannerViewModel.swift:130-138 | classification loses nothing: the decode result is recovered from the scan result |
| QrScannerViewModel.DeliverResult | MVVM+C/Sample/QR/QrScannerViewModel.swift:127-140 | when the delay elapses the oldest queued result is completed, classified, and removed; with nothing queued nothing happens |
| QrScannerViewModel.StepDelivers | MVVM+C/Sample/QR/QrScannerViewModel.swift:113-140 | for any one event, the results it completes followed by those left queued are those queued before followed by the result it decoded |
| QrScannerViewModel.RunDeliversInOrder | MVVM+C/Sample/QR/QrScannerViewModel.swift:113-140 | delayed delivery is first-in first-out and loses nothing: over any events, completed results then queued results equal the initially queued results then every decoder success, in order |
| QrScannerViewModel.DeliveredFromInit | MVVM+C/Sample/QR/QrScannerViewModel.swift:113-140 | from construction, the results completed are a prefix of the decoder's successes, each delivered once, and the rest are still queued |
| QrScannerViewModel.Step | MVVM+C/Sample/QR/QrScannerViewModel.swift:184-226 | every event keeps the timer invariant (only the stored timer may be scheduled) |
| QrScannerViewModel.PickImageAndFileFailure | MVVM+C/Sample/QR/QrScannerViewModel.swift:206-226 | pick-image disarms the timeout and shows the picker with state and text unchanged; a file-scanner failure sets `fail` with the text and timer unchanged |
| QrScannerViewModel.FlashlightTapInStep | MVVM+C/Sample/QR/QrScannerViewModel.swift:211-216 | a flashlight tap negates the flag, changes nothing else and emits the new value |
| QrScannerViewModel.BecameActiveInStep | MVVM+C/Sample/QR/QrScannerViewModel.swift:173-175 | becoming active re-emits the flashlight flag and changes nothing |
| QrScannerViewModel.ExitEventsInStep | MVVM+C/Sample/QR/QrScannerViewModel.swift:190-204 | back and error-close complete with `cancelled`, manual input with `manualInput`, with the stored state unchanged |
| QrScannerViewModel.FileScanIsCapture | MVVM+C/Sample/QR/QrScannerViewModel.swift:218-222 | a file-scanner success behaves exactly as a camera payload |
| QrScannerViewModel.RunKeepsOneTimer | MVVM+C/Sample/QR/QrScannerViewModel.swift:150-164 | over any sequence of events at most one timer is scheduled |
| QrScannerViewModel.OneTimerFromInit | MVVM+C/Sample/QR/QrScannerViewModel.swift:85-88 | from construction on, at most one timer is ever scheduled |
| QrScannerViewModel.FlashlightParity | MVVM+C/Sample/QR/QrScannerViewModel.swift:211-216 | after any events the flashlight flag is the initial flag negated once per tap |
| QrScannerViewModel.DoubleTapIsIdentity | MVVM+C/Sample/QR/QrScannerViewModel.swift:211-216 | two flashlight taps give back the same state |
| QrScannerView.Fresh | MVVM+C/Sample/QR/QrScannerView.swift:95 | the view starts in camera mode with the file view hidden |
| QrScannerView.Reset | MVVM+C/Sample/QR/QrScannerView.swift:192-201 | reset gives camera mode (file view hidden; capture, hole and overlay shown) and restarts capturing once |
| QrScannerView.SwitchToFileMode | MVVM+C/Sample/QR/QrScannerView.swift:182-190 | a user image gives file mode (file view shown with the image; capture, hole and overlay hidden) |
| QrScannerView.OnState | MVVM+C/Sample/QR/QrScannerView.swift:66-79 | in camera mode a state goes to the hole view and the error view is hidden iff the state is not `fail`; in file mode it goes only to the file view and the error view is untouched; `initial` forces camera mode |
| QrScannerView.Bind | MVVM+C/Sample/QR/QrScannerView.swift:64-91 | binding replays the current values, so the label and flashlight button show the view model's values |
| QrScannerView.BindFresh | MVVM+C/Sample/QR/QrScannerView.swift:66-79 | a fresh view bound to a fresh view model is in camera mode, capturing, error view hidden |
| QrScannerView.StepKeepsSync | MVVM+C/Sample/QR/QrScannerView.swift:85-91 | after any view-model event the label shows the info text and the flashlight button equals the last emitted flashlight value |
| QrScannerView.RunKeepsSync | MVVM+C/Sample/QR/QrScannerView.swift:85-91 | the same over any sequence of events |
| QrScannerView.ApplyAllKeepsMode | MVVM+C/Sample/QR/QrScannerView.swift:66-83 | whatever the view model emits, a view wholly in camera mode or wholly in file mode stays wholly in one of the two |
| QrScannerView.RunKeepsMode | MVVM+C/Sample/QR/QrScannerView.swift:64-91 | bound to a view model and driven by any events, a view that starts in one mode never shows a mixture of the two |
| QrScannerView.ModeAfterEvents | MVVM+C/Sample/QR/QrScannerView.swift:76-83 | whatever the mode, reset brings camera mode and a picked image brings file mode |
| QrScannerView.FileModeFailureKeepsErrorView | MVVM+C/Sample/QR/QrScannerView.swift:72-74 | in file mode a failure reaches only the file view; the error view keeps its visibility |
| QrScannerCoordinator.OnStart | MVVM+C/Sample/QR/QrScannerCoordinator.swift:83-110 | authorized starts the scanner at once and keeps the outstanding requests and pickers; not-determined requests access, one more outstanding request each time; denied or restricted only presents the settings alert |
| QrScannerCoordinator.OnAccessAnswered | MVVM+C/Sample/QR/QrScannerCoordinator.swift:57-66 | an answer closes one outstanding request: `true` starts the scanner, `false` completes with `cancelled`; with no request outstanding nothing happens |
| QrScannerCoordinator.EveryRequestIsAnswered | MVVM+C/Sample/QR/QrScannerCoordinator.swift:104-108 | every undetermined start registers its own request: two requests answered `true` present the scanner twice, and a third answer does nothing |
| QrScannerCoordinator.AnswersCloseRequests | MVVM+C/Sample/QR/QrScannerCoordinator.swift:57-66 | with no new start, the open requests after any events are those before less one per answer, never below zero |
| QrScannerCoordinator.Outward | MVVM+C/Sample/QR/QrScannerCoordinator.swift:127-139 | every scan result except a payment list has an outward result |
| QrScannerCoordinator.OutwardRoundTrip | MVVM+C/Sample/QR/QrScannerCoordinator.swift:127-139 | payment becomes decoded(payment), raw fields become decoded(notFound), manual input and cancel stay; with `DecodeResult(payment:)` taken as a constructor the mapping is one-to-one |
| QrScannerCoordinator.Dismiss | MVVM+C/Sample/QR/QrScannerCoordinator.swift:112-142 | a payment list starts one picker and neither dismisses nor completes; every other result dismisses once and then completes once with its outward value |
| QrScannerCoordinator.OnPickerCompleted | MVVM+C/Sample/QR/QrScannerCoordinator.swift:116-126 | a picker's choice dismisses, with the flag captured when it was started, and then completes with decoded(choice) |
| QrScannerCoordinator.DismissModalsIsCancel | MVVM+C/Sample/QR/QrScannerCoordinator.swift:144-146 | the dismiss-modals signal dismisses without animation and completes with `cancelled` |
| QrScannerCoordinator.DeniedStaysQuiet | MVVM+C/Sample/QR/QrScannerCoordinator.swift:89-102 | with no request outstanding and nothing shown, no event other than the dismiss-modals signal or a new start presents the scanner or completes |
| QrScannerCoordinator.DeniedStart | MVVM+C/Sample/QR/QrScannerCoordinator.swift:89-102 | a denied start shows the settings alert and nothing later, short of the dismiss-modals signal or a new start, presents the scanner or completes |
| QrScannerCoordinator.CompletionNotGuarded | MVVM+C/Sample/QR/QrScannerCoordinator.swift:71-74 | two module completions give two dismissals and two completions: there is no at-most-once guard |
| QrScanFlow.DeliveredResultReachesCaller | MVVM+C/Sample/QR/QrScannerCoordinator.swift:112-142 | a delivered decode yields notFound(fields), decoded(the single payment), or a picker whose choice is returned; dismissal always precedes completion |
| QrScanFlow.OnePaymentJourney | MVVM+C/Sample/QR/QrScannerViewModel.swift:108-140 | authorized camera and one decoded payment: loading, success, then after the delay `payment(P)`, which the coordinator returns as decoded(P) |
| QrScanFlow.ThreePaymentsJourney | MVVM+C/Sample/QR/QrScannerCoordinator.swift:116-126 | three decoded payments are delivered as a list and handed to a picker; the caller receives the picker's choice |
| QrScanFlow.TimeoutJourney | MVVM+C/Sample/QR/QrScannerViewModel.swift:166-169 | with no payload the construction timer fires: `fail`, the pre-scan text restored, no timer left armed |
| QrScanFlow.NoTimeoutWhileDecoding | MVVM+C/Sample/QR/QrScannerViewModel.swift:108-111 | after a payload no timer firing has any effect, because the timeout was stopped and not re-armed |
| QrScanFlow.RetryAfterFailure | MVVM+C/Sample/QR/QrScannerViewModel.swift:142-146 | reset after a failure returns to `initial` with exactly one fresh timeout, the old one invalidated |
| TabBarCoordinator.CheckDeeplink | MVVM+C/Sample/TabBarCoordinator.swift:40-50 | the pending action is always cleared; with none pending nothing happens; without a selected navigation tab with a root screen nothing but the clearing happens |
| TabBarCoordinator.CheckDeeplinkIsOneShot | MVVM+C/Sample/TabBarCoordinator.swift:41-45 | a second check without a new action does nothing |
| TabBarCoordinator.OpenDeeplink | MVVM+C/Sample/TabBarCoordinator.swift:327-330 | opening a URL dispatches it at once, with exactly the tab bar and effects of performing its navigation, and leaves nothing pending; with no root screen available only the pending slot is cleared |
| TabBarCoordinator.PopAll | MVVM+C/Sample/TabBarCoordinator.swift:416-422 | every navigation tab is cut to its root screen; every other tab is left untouched; the number of tabs is unchanged |
| TabBarCoordinator.PopAllIdempotent | MVVM+C/Sample/TabBarCoordinator.swift:416-422 | popping every tab to root twice equals doing it once |
| TabBarCoordinator.PopOne | MVVM+C/Sample/TabBarCoordinator.swift:408 | popping removes exactly the top screen of a navigation stack deeper than its root, and otherwise changes nothing |
| TabBarCoordinator.FindLanding | MVVM+C/Sample/TabBarCoordinator.swift:397 | the landing found is the first one with the id; none is found iff no landing has it |
| TabBarCoordinator.Perform | MVVM+C/Sample/TabBarCoordinator.swift:219-325 | main, history, chat and more pop every tab and select 0, 2, 3 and 4; payment selects 1 without popping and shows templates iff tab 1 has a top screen; a category selects 1 and is shown iff the payment screen is on top of tab 1 and the catalog knows the name; full ncpk starts from tab 0's top screen iff it has one; a landing starts a flow iff the id is found; the remaining navigations are handed on unchanged |
| TabBarCoordinator.PerformKeepsRoots | MVVM+C/Sample/TabBarCoordinator.swift:219-325 | for every navigation the tab bar keeps its tabs and each tab its root screen; stacks only lose screens from the top, down to the root for the four tab screens and not at all otherwise; the selection moves only to the navigation's own tab |
| TabBarCoordinator.DispatchRange | MVVM+C/Sample/TabBarCoordinator.swift:52-111 | a URL never leads to the chat tab, a shortcut route, push detail or nothing; routed URLs and shortcut types are handed on unchanged; a landing opens only with the toggle on and for the URL's own id |
| TabBarCoordinator.CheckDeeplinkKeepsRoots | MVVM+C/Sample/TabBarCoordinator.swift:40-111 | for any pending action the tab bar keeps its tabs and their root screens, and the selection stays or moves to the tab the dispatched navigation names |
| TabBarCoordinator.DeeplinkTabTargets | MVVM+C/Sample/TabBarCoordinator.swift:52-97 | main, history and profile pop everything and select 0, 2, 4; templates and autopayments select 1 without pop; catalog selects 1 and shows its category iff the payment screen is on top of tab 1 and the catalog knows it; ncpk starts the credit flow iff tab 0 has a top screen; old navigation and tutorial (with the URL), personal offer, deposit, loan form (each with its id or code) and legacy (with the URL) leave the tab bar alone and make exactly their own outside call |
| TabBarCoordinator.ShortcutTargets | MVVM+C/Sample/TabBarCoordinator.swift:99-111 | the history and templates shortcuts behave exactly as the history and templates deep links; fill-phone and transfer go to the router; push detail opens the detail screen; anything else does nothing |
| TabBarCoordinator.LandingWithToggleOffIsMain | MVVM+C/Sample/TabBarCoordinator.swift:89-94 | with the landing toggle off a landing link behaves exactly as a main-screen link |
| TabBarCoordinator.UnknownLandingDoesNothing | MVVM+C/Sample/TabBarCoordinator.swift:392-413 | with the toggle on, an id no landing has causes no navigation at all |
| TabBarCoordinator.UnknownShortcutDoesNothing | MVVM+C/Sample/TabBarCoordinator.swift:109-110 | a shortcut type outside the table causes nothing beyond consuming the action |
| TabBarCoordinator.OnLandingCompleted | MVVM+C/Sample/TabBarCoordinator.swift:405-410 | a landing's `.close` pops one screen off the tab it was opened on and touches nothing else |
| TabBarCoordinator.PushLanding | MVVM+C/Sample/DynamicPromoLanding/DynamicPromoLandingCoordinator.swift:48 | the landing view is pushed on top of the stack of the tab it was opened on; selection and every other tab are unchanged |
| TabBarCoordinator.PushThenCloseRestores | MVVM+C/Sample/TabBarCoordinator.swift:405-410 | on a navigation tab with a root screen, the landing's close undoes its push: the coordinator is exactly as before |
| TabBarCoordinator.LandingFlowRestores | MVVM+C/Sample/TabBarCoordinator.swift:397-410 | for any navigation tab with a root screen, a started landing flow pushes the landing there, and the user's close, relayed to the tab bar's completion, pops it and gives back the coordinator unchanged |
| TabBarCoordinator.LandingCloseChain | MVVM+C/Sample/TabBarCoordinator.swift:392-413 | a landing deep link only clears the pending slot and starts the flow for the first landing with that id on the selected tab; the landing is pushed on top of its stack; the user's close goes through the relay to the tab bar's completion and gives back exactly the coordinator before the link, apart from the cleared pending slot |
| DynamicPromoLandingViewModel.Bullets | MVVM+C/Sample/DynamicPromoLandingViewModel.swift:98 | bullets have the points' length and order; bullet i carries icon, text and subtext of point i |
| DynamicPromoLandingViewModel.BulletsRoundTrip | MVVM+C/Sample/DynamicPromoLandingViewModel.swift:98 | no point is lost: the points are recovered from their bullets |
| DynamicPromoLandingViewModel.Project | MVVM+C/Sample/DynamicPromoLandingViewModel.swift:90-99 | each output field is the corresponding landing field; bullets are absent iff points are, and otherwise recover the points |
| DynamicPromoLandingViewModel.LinkTap | MVVM+C/Sample/DynamicPromoLandingViewModel.swift:68-80 | a button tap opens exactly one URL iff the button has a link that parses and an opener is set, and that URL is the parsed link; otherwise nothing |
| DynamicPromoLandingViewModel.OnEvent | MVVM+C/Sample/DynamicPromoLandingViewModel.swift:66-89 | primary uses the button link, eula the eula link, close completes with `.close`, a text link is forwarded unchanged |
| DynamicPromoLandingViewModel.OnlyCloseCompletes | MVVM+C/Sample/DynamicPromoLandingViewModel.swift:82-84 | only the close tap completes, and it opens no link |
| DynamicPromoLandingCoordinator.Start | MVVM+C/Sample/DynamicPromoLanding/DynamicPromoLandingCoordinator.swift:34-49 | if resolution fails nothing is wired or pushed; otherwise the module gets the landing, the coordinator's opener and the relay, and its view is pushed exactly once |
| DynamicPromoLandingCoordinator.OnModuleCompleted | MVVM+C/Sample/DynamicPromoLanding/DynamicPromoLandingCoordinator.swift:41-46 | the module's `.close` becomes the coordinator's `.close` |
| DynamicPromoLandingCoordinator.StartedLandingWiring | MVVM+C/Sample/DynamicPromoLanding/DynamicPromoLandingCoordinator.swift:39-46 | in a started landing, close reaches the coordinator's completion and text links reach the coordinator's opener |
| LoginViewModel.Validity | MVVM+C/Modules/Login/LoginViewModel.swift:39 | valid iff both fields have at least four characters; an empty field is never valid |
| LoginViewModel.EditKeepsOtherField | MVVM+C/Modules/Login/LoginViewModel.swift:38 | an edit sets its own field's latest value and keeps the other field's |
| LoginViewModel.ValidityStream | MVVM+C/Modules/Login/LoginViewModel.swift:37-41 | the stream is `false` first, `false` for the two empty starting values, then one value per edit from the latest value of each field |

The landing module's `assemblies()` (DynamicPromoLandingCoordinator.swift:28-32)
is the constant `DynamicPromoLandingCoordinator.Assemblies`. It has exactly
one entry, the landing-module assembly.

`DynamicPromoLandingViewModel.PointsOf` reads bullets back as points. It
models nothing in the sample; it exists so that `BulletsRoundTrip` can state
that no point is lost.

## Left out

- Swinject containers and assemblies: registration, scopes and resolution are
  in a library not part of this model. A failed resolve of the landing module
  is the `resolved` parameter of `DynamicPromoLandingCoordinator.Start`. The
  QR module's resolve is force-unwrapped and is assumed to succeed.
- View controllers, layout, attributed text, image loading, torch hardware and
  the image picker. Only the scanner view's mode flags, state displays, label
  and flashlight button are modelled.
- RxSwift relays, `NotificationCenter`, `Timer` and `DispatchQueue`. Emissions
  are effects in order, timer firings and the delay are events, and
  notifications are events.
- `[weak self]` captures. The model assumes the view model and the
  coordinators are alive when their callbacks run. The weakly held navigation
  controller of the landing coordinator is assumed alive when it pushes.
- The QR view model's `onComplete` is treated as wired before any event. The
  coordinator sets it right after resolving the module.
- External collaborators are parameters or opaque effects:
  - the payment-data decoder and the file scanner;
  - `URL(string:)`, and `url.type` (`Env.linkType`);
  - the landing service (`Env.landings`) and the feature toggle
    (`Env.landingToggle`);
  - `CatalogService.category(withName:)`, as the set of names it finds
    (`Env.categories`);
  - `ObjcRouting`, `DeeplinkRouter`, `MtsBankService` and the
    remote-notification store;
  - the other coordinators (payment templates and category, credit, personal
    offer, deposit, short-loan form, push detail). Starting them is an effect.
    The tab bar's own checks before starting them are modelled; checks on
    data held elsewhere (the bank id for the credit and short-loan flows, the
    notification's user info for push detail) are not, and the effect
    stands for the call.
- What `coordinate(to:)` does with a child, including starting and releasing
  it, belongs to a coordinator library not part of this model. Starting a
  picker or a landing flow is an effect.
- TabBarCoordinator.Perform: on a tab bar with fewer than two tabs, the
  payment screen and the payment category select nothing and show nothing,
  and with no tab full ncpk starts nothing. Swift's `viewControllers?[1]`
  and `viewControllers?[0]` trap there. `showTabBar` installs at least four
  tabs, so the case does not arise once the tab bar is shown.
- QrScannerCoordinator.OutwardRoundTrip: `QrScannerResult.DecodeResult(payment:)`
  is an initializer whose definition is not part of this model. It is
  modelled as the one-to-one constructor `Found`, and the round trip rests
  on that choice.
- UIKit's treatment of an out-of-range `selectedIndex` is taken to be "ignored"
  (`TabBarCoordinator.Select`).
- `Landing` and `LandingData` are one record, because the conversion between
  them is not part of this model. Inner fields whose optionality is not visible
  are modelled as optional.
- LoginViewModel.Validity: counts Dafny characters where Swift's
  `String.count` counts grapheme clusters.
- The flows the tab bar registers for notifications (`add*Flow`,
  `openMainScreenWithAnimation`, `openPaymentScreenOnly`, support e-mail) are
  not part of deep-link dispatch and are not modelled. `openChatScreen` is
  modelled as a navigation.
- `MainPageViewModel` and `DynamicPromoLandingModule` hold data only. Their
  types appear only as needed.

=== FILE: common.dfy ===
/** Small shared vocabulary: Swift optionals, URLs and closure identities. */
module Common {

  /** Swift's `Optional`. */
  datatype Option<+T> = None | Some(value: T)

  /** A `URL` value; parsing a string into one is left to the caller
      (`URL(string:)` is a platform collaborator). */
  datatype Url = Url(text: string)

  /** The identity of a stored closure (`((URL) -> Void)?`, `onComplete`):
      effects name the closure they call, so wiring can be checked. */
  datatype Handler = Handler(id: nat)

  /** Number of elements of `s` satisfying `p`. */
  function CountWhere<T>(s: seq<T>, p: T -> bool): (n: nat)
    ensures n <= |s|
    ensures n == 0 <==> forall i :: 0 <= i < |s| ==> !p(s[i])
  {
    if s == [] then 0
    else (if p(s[0]) then 1 else 0) + CountWhere(s[1..], p)
  }
}

=== FILE: dynamic_promo_landing_coordinator.dfy ===
/** `DynamicPromoLandingCoordinator`: resolves the landing module, passes its
    own link opener down, relays the module's close upward, and pushes the
    module's view. */
module DynamicPromoLandingCoordinator {
  import opened Common
  import LVM = DynamicPromoLandingViewModel

  datatype AssemblyId = DynamicPromoLandingModuleAssembly

  /** `assemblies()`: only the landing module's assembly. */
  const Assemblies: seq<AssemblyId> := [DynamicPromoLandingModuleAssembly]

  /** `relay` is the identity of the closure `start` stores as the module's
      `onComplete`; `openLink` and `onComplete` are the coordinator's own
      closures as its creator set them. */
  datatype Coordinator = Coordinator(
    landing: LVM.LandingData,
    openLink: Option<Handler>,
    onComplete: Option<Handler>,
    relay: Handler)

  datatype Effect =
    | PushModuleView(animated: bool)
    | Complete(handler: Handler, result: LVM.PromoViewingResult)

  /** `start`. `resolved` says whether the container produced the module;
      when it did not, nothing is wired and nothing is pushed. Otherwise the
      module sees the coordinator's landing and opener, completes through the
      relay, and its view is pushed once. */
  function Start(c: Coordinator, resolved: bool): (r: (Option<LVM.ViewModel>, seq<Effect>))
    ensures !resolved ==> r.0.None? && r.1 == []
    ensures resolved ==> r.0.Some? && r.1 == [PushModuleView(true)]
    ensures resolved ==> r.0.value.landing == c.landing && r.0.value.openLink == c.openLink
    ensures resolved ==> r.0.value.onComplete == Some(c.relay)
  {
    if !resolved then (None, [])
    else (Some(LVM.ViewModel(c.landing, c.openLink, Some(c.relay))), [PushModuleView(true)])
  }

  /** The relay: the module's `.close` becomes the coordinator's `.close`. */
  function OnModuleCompleted(c: Coordinator, result: LVM.PromoViewingResult): (r: seq<Effect>)
    ensures c.onComplete.Some? ==> r == [Complete(c.onComplete.value, LVM.Close)]
    ensures c.onComplete.None? ==> r == []
  {
    match result
    case Close => if c.onComplete.Some? then [Complete(c.onComplete.value, LVM.Close)] else []
  }

  /** A started landing: its close button reaches the coordinator's own
      completion through the relay, and its links reach the coordinator's
      own opener. */
  lemma StartedLandingWiring(c: Coordinator, parse: string -> Option<Url>, url: Url)
    requires c.onComplete.Some? && c.openLink.Some?
    ensures var vm := Start(c, true).0.value;
      var closeFx := LVM.OnEvent(vm, parse, LVM.CloseButtonTap);
      && closeFx == [LVM.Completed(c.relay, LVM.Close)]
      && OnModuleCompleted(c, closeFx[0].result) == [Complete(c.onComplete.value, LVM.Close)]
      && LVM.OnEvent(vm, parse, LVM.LinkTapped(url)) == [LVM.OpenLink(c.openLink.value, url)]
  {
  }
}

=== FILE: dynamic_promo_landing_view_model.dfy ===
/** `DynamicPromoLandingViewModel`: projects landing data to the screen's
    output and turns taps into link openings or a close completion. */
module DynamicPromoLandingViewModel {
  import opened Common

  datatype ImageInfo = ImageInfo(image: Option<string>)
  datatype ExampleInfo = ExampleInfo(title: Option<string>, text: Option<string>)
  datatype ButtonInfo = ButtonInfo(text: Option<string>, link: Option<string>)
  datatype Point = Point(icon: string, text: string, subtext: Option<string>)

  /** The landing record (`LandingData`; the service's `Landing` it is built
      from carries the same fields and is identified by `landingId`). */
  datatype LandingData = LandingData(
    landingId: string,
    navBarTitle: Option<string>,
    imageInfo: Option<ImageInfo>,
    exampleInfo: Option<ExampleInfo>,
    buttonInfo: Option<ButtonInfo>,
    eulaInfo: Option<ButtonInfo>,
    hint: Option<string>,
    points: Option<seq<Point>>)

  datatype BulletData = BulletData(iconUrl: string, text: string, subtext: Option<string>)

  datatype Output = Output(
    promoTitle: Option<string>,
    imageUrl: Option<string>,
    infoTitle: Option<string>,
    infoText: Option<string>,
    primaryButtonTitle: Option<string>,
    infoButtonTitle: Option<string>,
    hintText: Option<string>,
    bullets: Option<seq<BulletData>>)

  /** `PromoViewingResult`. */
  datatype PromoViewingResult = Close

  /** The view model with its two closures, as identities (`None` = unset). */
  datatype ViewModel = ViewModel(landing: LandingData, openLink: Option<Handler>, onComplete: Option<Handler>)

  datatype Event =
    | PrimaryButtonTap
    | EulaButtonTap
    | CloseButtonTap
    | LinkTapped(url: Url)                 // a link inside the attributed text

  datatype Effect =
    | OpenLink(handler: Handler, url: Url)
    | Completed(handler: Handler, result: PromoViewingResult)

  /** Optional chaining `info?.field`. */
  function ImageOf(i: Option<ImageInfo>): Option<string> {
    if i.Some? then i.value.image else None
  }
  function TitleOf(i: Option<ExampleInfo>): Option<string> {
    if i.Some? then i.value.title else None
  }
  function ExampleTextOf(i: Option<ExampleInfo>): Option<string> {
    if i.Some? then i.value.text else None
  }
  function ButtonTextOf(i: Option<ButtonInfo>): Option<string> {
    if i.Some? then i.value.text else None
  }
  function LinkOf(i: Option<ButtonInfo>): Option<string> {
    if i.Some? then i.value.link else None
  }

  function ToBullet(p: Point): BulletData {
    BulletData(p.icon, p.text, p.subtext)
  }

  function ToPoint(b: BulletData): Point {
    Point(b.iconUrl, b.text, b.subtext)
  }

  /** `points.map { BulletData(...) }`: same length, same order. */
  function Bullets(points: seq<Point>): (r: seq<BulletData>)
    ensures |r| == |points|
    ensures forall i :: 0 <= i < |points| ==>
      r[i].iconUrl == points[i].icon && r[i].text == points[i].text && r[i].subtext == points[i].subtext
    decreases |points|
  {
    if points == [] then [] else [ToBullet(points[0])] + Bullets(points[1..])
  }

  /** The inverse direction, used to state that no point is lost. */
  function PointsOf(bullets: seq<BulletData>): (r: seq<Point>)
    ensures |r| == |bullets|
    ensures forall i :: 0 <= i < |bullets| ==> r[i] == ToPoint(bullets[i])
    decreases |bullets|
  {
    if bullets == [] then [] else [ToPoint(bullets[0])] + PointsOf(bullets[1..])
  }

  /** Every point can be read back from its bullet. */
  lemma BulletsRoundTrip(points: seq<Point>)
    ensures PointsOf(Bullets(points)) == points
  {
    var r := PointsOf(Bullets(points));
    assert forall i :: 0 <= i < |points| ==> r[i] == points[i];
  }

  /** The output `bind(input:)` returns: each field is the corresponding
      landing field, and bullets exist exactly when points do. */
  function Project(l: LandingData): (o: Output)
    ensures o.promoTitle == l.navBarTitle && o.hintText == l.hint
    ensures o.imageUrl == ImageOf(l.imageInfo)
    ensures o.infoTitle == TitleOf(l.exampleInfo) && o.infoText == ExampleTextOf(l.exampleInfo)
    ensures o.primaryButtonTitle == ButtonTextOf(l.buttonInfo)
    ensures o.infoButtonTitle == ButtonTextOf(l.eulaInfo)
    ensures o.bullets.None? <==> l.points.None?
    ensures l.points.Some? ==> PointsOf(o.bullets.value) == l.points.value
  {
    assert l.points.Some? ==> PointsOf(Bullets(l.points.value)) == l.points.value by {
      if l.points.Some? {
        BulletsRoundTrip(l.points.value);
      }
    }
    Output(l.navBarTitle, ImageOf(l.imageInfo), TitleOf(l.exampleInfo), ExampleTextOf(l.exampleInfo),
           ButtonTextOf(l.buttonInfo), ButtonTextOf(l.eulaInfo), l.hint,
           if l.points.Some? then Some(Bullets(l.points.value)) else None)
  }

  /** A tap on a button carrying `info`: open the link when there is one,
      it parses, and an opener is set; otherwise nothing happens. */
  function LinkTap(vm: ViewModel, info: Option<ButtonInfo>, parse: string -> Option<Url>): (r: seq<Effect>)
    ensures |r| <= 1
    ensures r != [] <==> vm.openLink.Some? && LinkOf(info).Some? && parse(LinkOf(info).value).Some?
    ensures r != [] ==> r[0] == OpenLink(vm.openLink.value, parse(LinkOf(info).value).value)
  {
    match LinkOf(info)
    case None => []
    case Some(link) =>
      match parse(link)
      case None => []
      case Some(url) => if vm.openLink.Some? then [OpenLink(vm.openLink.value, url)] else []
  }

  /** The reactions wired in `bind(input:)`. The view model keeps no state
      of its own, so an event only produces effects. */
  function OnEvent(vm: ViewModel, parse: string -> Option<Url>, e: Event): (r: seq<Effect>)
    ensures e.PrimaryButtonTap? ==> r == LinkTap(vm, vm.landing.buttonInfo, parse)
    ensures e.EulaButtonTap? ==> r == LinkTap(vm, vm.landing.eulaInfo, parse)
    ensures e.CloseButtonTap? ==>
      (vm.onComplete.Some? ==> r == [Completed(vm.onComplete.value, Close)]) &&
      (vm.onComplete.None? ==> r == [])
    ensures e.LinkTapped? ==>
      (vm.openLink.Some? ==> r == [OpenLink(vm.openLink.value, e.url)]) &&
      (vm.openLink.None? ==> r == [])
  {
    match e
    case PrimaryButtonTap => LinkTap(vm, vm.landing.buttonInfo, parse)
    case EulaButtonTap => LinkTap(vm, vm.landing.eulaInfo, parse)
    case CloseButtonTap => if vm.onComplete.Some? then [Completed(vm.onComplete.value, Close)] else []
    case LinkTapped(url) => if vm.openLink.Some? then [OpenLink(vm.openLink.value, url)] else []
  }

  /** No tap ever completes except close, and close never opens a link. */
  lemma OnlyCloseCompletes(vm: ViewModel, parse: string -> Option<Url>, e: Event)
    ensures forall i :: 0 <= i < |OnEvent(vm, parse, e)| ==>
      (OnEvent(vm, parse, e)[i].Completed? <==> e.CloseButtonTap?)
  {
  }
}

=== FILE: login_view_model.dfy ===
/** `LoginViewModel.isValid()`: the stream of validity values computed from
    the latest username and password. */
module LoginViewModel {

  /** One value typed into a field. */
  datatype Edit = UsernameEdit(username: string) | PasswordEdit(password: string)

  /** Both fields need more than three characters, i.e. at least four. */
  function Validity(username: string, password: string): (r: bool)
    ensures r <==> |username| >= 4 && |password| >= 4
    ensures username == "" || password == "" ==> !r
  {
    |username| > 3 && |password| > 3
  }

  /** The latest username typed, or "" (`startWith("")`) before any. */
  function LatestUsername(edits: seq<Edit>): string
    decreases |edits|
  {
    if edits == [] then ""
    else if edits[|edits| - 1].UsernameEdit? then edits[|edits| - 1].username
    else LatestUsername(edits[..|edits| - 1])
  }

  /** The latest password typed, or "" before any. */
  function LatestPassword(edits: seq<Edit>): string
    decreases |edits|
  {
    if edits == [] then ""
    else if edits[|edits| - 1].PasswordEdit? then edits[|edits| - 1].password
    else LatestPassword(edits[..|edits| - 1])
  }

  /** An edit of one field keeps the other field's last value. */
  lemma EditKeepsOtherField(edits: seq<Edit>, e: Edit)
    ensures e.UsernameEdit? ==>
      LatestUsername(edits + [e]) == e.username && LatestPassword(edits + [e]) == LatestPassword(edits)
    ensures e.PasswordEdit? ==>
      LatestPassword(edits + [e]) == e.password && LatestUsername(edits + [e]) == LatestUsername(edits)
  {
    assert (edits + [e])[..|edits|] == edits;
  }

  /** The values `isValid()` emits for a sequence of edits: `false` from
      `startWith(false)`, then `false` for the two empty starting values,
      then one value per edit from the latest value of each field. */
  method ValidityStream(edits: seq<Edit>) returns (out: seq<bool>)
    ensures |out| == |edits| + 2
    ensures !out[0] && !out[1]
    ensures forall i :: 2 <= i < |out| ==>
      out[i] == Validity(LatestUsername(edits[..i - 1]), LatestPassword(edits[..i - 1]))
  {
    var username, password := "", "";
    out := [false, Validity(username, password)];
    var k := 0;
    while k < |edits|
      invariant 0 <= k <= |edits|
      invariant |out| == k + 2
      invariant !out[0] && !out[1]
      invariant username == LatestUsername(edits[..k]) && password == LatestPassword(edits[..k])
      invariant forall i :: 2 <= i < |out| ==>
        out[i] == Validity(LatestUsername(edits[..i - 1]), LatestPassword(edits[..i - 1]))
    {
      EditKeepsOtherField(edits[..k], edits[k]);
      assert edits[..k + 1] == edits[..k] + [edits[k]];
      match edits[k] {
        case UsernameEdit(u) => username := u;
        case PasswordEdit(p) => password := p;
      }
      out := out + [Validity(username, password)];
      k := k + 1;
    }
  }
}

=== FILE: qr_scan_flow.dfy ===
/** The scan flow end to end: the view model's delivered result handed to
    the coordinator, and the concrete journeys of a scan session. */
module QrScanFlow {
  import opened Common
  import VM = QrScannerViewModel
  import C = QrScannerCoordinator

  /** Running three events is stepping through them. */
  lemma RunThree(m: VM.Model, a: VM.Event, b: VM.Event, c: VM.Event)
    ensures var (m1, f1) := VM.Step(m, a);
      var (m2, f2) := VM.Step(m1, b);
      var (m3, f3) := VM.Step(m2, c);
      VM.Run(m, [a, b, c]) == (m3, f1 + f2 + f3)
  {
    var (m1, f1) := VM.Step(m, a);
    var (m2, f2) := VM.Step(m1, b);
    var (m3, f3) := VM.Step(m2, c);
    assert [c][1..] == [];
    assert VM.Run(m2, [c]) == (m3, f3 + []);
    assert [b, c][1..] == [c];
    assert VM.Run(m1, [b, c]) == (m3, f2 + (f3 + []));
    assert [a, b, c][1..] == [b, c];
    assert VM.Run(m, [a, b, c]) == (m3, f1 + (f2 + (f3 + [])));
    assert f1 + (f2 + (f3 + [])) == f1 + f2 + f3;
  }

  /** What reaches the coordinator's caller once a decoded result has been
      delivered: raw fields give a not-found outcome, a single payment is
      returned as found, and any other list goes through the picker, whose
      choice is returned as found. Dismissal always comes first. */
  lemma DeliveredResultReachesCaller(c: C.Coordinator, d: VM.DecodeResult, choice: VM.DecodedPayment)
    requires c.scannerShown
    ensures d.FieldsDecoded? ==>
      C.Step(c, C.ModuleCompleted(VM.Classify(d))).1
        == [C.DismissNavigation(true), C.Complete(C.Decoded(C.NotFound(d.fields)))]
    ensures d.PaymentsDecoded? && |d.payments| == 1 ==>
      C.Step(c, C.ModuleCompleted(VM.Classify(d))).1
        == [C.DismissNavigation(true), C.Complete(C.Decoded(C.Found(d.payments[0])))]
    ensures d.PaymentsDecoded? && |d.payments| != 1 ==>
      var (c1, f1) := C.Step(c, C.ModuleCompleted(VM.Classify(d)));
      f1 == [C.StartPicker(d.payments)] &&
      C.Step(c1, C.PickerCompleted(|c.pickers|, choice)).1
        == [C.DismissNavigation(true), C.Complete(C.Decoded(C.Found(choice)))]
  {
  }

  /** Camera authorised, one payment decoded: the payload stops the timer,
      success is shown, and after the delay the single payment is delivered;
      the coordinator then dismisses and returns it. */
  lemma OnePaymentJourney(payload: string, p: VM.DecodedPayment)
    ensures C.Step(C.Created, C.Start(C.Authorized)) == (C.Created.(scannerShown := true), [C.PresentScanner])
    ensures var (m, f) := VM.Run(VM.Init(), [VM.CaptureResult(payload),
                                             VM.DecoderSucceeded(VM.PaymentsDecoded([p])),
                                             VM.DismissDelayElapsed]);
      && m.state == VM.Success && !VM.Armed(m) && m.pending == []
      && f == [VM.EmitState(VM.Loading), VM.EmitInfoText(VM.ProcessingText), VM.StartDecoding(payload),
               VM.EmitState(VM.Success), VM.EmitInfoText(VM.CompleteText), VM.Complete(VM.OnePayment(p))]
    ensures C.Step(C.Created.(scannerShown := true), C.ModuleCompleted(VM.OnePayment(p))).1
      == [C.DismissNavigation(true), C.Complete(C.Decoded(C.Found(p)))]
  {
    RunThree(VM.Init(), VM.CaptureResult(payload), VM.DecoderSucceeded(VM.PaymentsDecoded([p])),
             VM.DismissDelayElapsed);
  }

  /** Three payments decoded: the list is delivered as a list and handed to
      a picker; the picker's choice is what the caller receives. */
  lemma ThreePaymentsJourney(payload: string, p1: VM.DecodedPayment, p2: VM.DecodedPayment,
                             p3: VM.DecodedPayment, choice: VM.DecodedPayment)
    ensures var (m, f) := VM.Run(VM.Init(), [VM.CaptureResult(payload),
                                             VM.DecoderSucceeded(VM.PaymentsDecoded([p1, p2, p3])),
                                             VM.DismissDelayElapsed]);
      f[|f| - 1] == VM.Complete(VM.Payments([p1, p2, p3]))
    ensures var c := C.Created.(scannerShown := true);
      var (c1, f1) := C.Step(c, C.ModuleCompleted(VM.Payments([p1, p2, p3])));
      f1 == [C.StartPicker([p1, p2, p3])] &&
      C.Step(c1, C.PickerCompleted(0, choice)).1
        == [C.DismissNavigation(true), C.Complete(C.Decoded(C.Found(choice)))]
  {
    RunThree(VM.Init(), VM.CaptureResult(payload), VM.DecoderSucceeded(VM.PaymentsDecoded([p1, p2, p3])),
             VM.DismissDelayElapsed);
  }

  /** No payload within the timeout: the construction timer fires, the state
      fails with the pre-scan text restored and no timer is left armed. */
  lemma TimeoutJourney()
    ensures var m := VM.Init();
      m.timeoutTimer.Some? &&
      var (m1, f1) := VM.Step(m, VM.TimerFired(m.timeoutTimer.value));
      m1.state == VM.Fail && m1.infoText == VM.PointCameraText && !VM.Armed(m1) &&
      f1 == [VM.EmitState(VM.Fail), VM.EmitInfoText(VM.PointCameraText)]
  {
  }

  /** Once a payload is being decoded no timeout can fire: the timer is
      stopped, not re-armed, so every timer firing is ignored until a reset
      or another image arms a new one. */
  lemma NoTimeoutWhileDecoding(m: VM.Model, payload: string, t: nat)
    requires VM.TimerInv(m)
    ensures var m1 := VM.Step(m, VM.CaptureResult(payload)).0;
      VM.Step(m1, VM.TimerFired(t)) == (m1, [])
  {
  }

  /** After a failure, reset brings the session back to the initial state
      with a fresh timeout armed and the previous one invalidated. */
  lemma RetryAfterFailure(m: VM.Model)
    requires VM.TimerInv(m) && m.state == VM.Fail
    ensures var m1 := VM.Step(m, VM.ResetTapped).0;
      m1.state == VM.Initial && VM.Armed(m1) && m1.scheduled == {m1.timeoutTimer.value}
      && (m.timeoutTimer.Some? ==> m.timeoutTimer.value !in m1.scheduled)
  {
  }
}

=== FILE: qr_scanner_coordinator.dfy ===
/** `QrScannerCoordinator`: gates the scanner on camera authorisation, maps
    the module's `ScanResult` to its own `QrScannerResult`, and routes a
    multi-payment result through a child payment-picker coordinator. */
module QrScannerCoordinator {
  import opened Common
  import VM = QrScannerViewModel

  /** `AVAuthorizationStatus` for video. */
  datatype AuthorizationStatus = Authorized | Denied | Restricted | NotDetermined

  /** `QrScannerResult.DecodeResult`: a chosen payment, or only raw fields. */
  datatype DecodeOutcome =
    | Found(payment: VM.DecodedPayment)
    | NotFound(fields: map<string, string>)

  /** `QrScannerResult`, the coordinator's completion value. */
  datatype QrScannerResult =
    | Decoded(outcome: DecodeOutcome)
    | ManualEntry
    | Cancelled

  /** `scannerShown`: `startScanner` has been called, so the module's completion is wired.
      `requests`: permission requests still unanswered; every `start` with an
      undetermined status registers its own completion.
      `pickers`: the `animated` flag captured by each payment picker started
      so far, in start order; a picker's completion uses its own flag. */
  datatype Coordinator = Coordinator(
    scannerShown: bool,
    requests: nat,
    pickers: seq<bool>)

  const Created: Coordinator := Coordinator(false, 0, [])

  datatype Event =
    | Start(status: AuthorizationStatus)
    | AccessAnswered(granted: bool)
    | ModuleCompleted(result: VM.ScanResult)
    | PickerCompleted(picker: nat, payment: VM.DecodedPayment)
    | DismissModals                        // the "needDismissModalViews" notification

  datatype Effect =
    | PresentSettingsAlert
    | RequestCameraAccess
    | PresentScanner                       // push the module view, present the navigation
    | StartPicker(payments: seq<VM.DecodedPayment>)
    | DismissNavigation(animated: bool)
    | Complete(result: QrScannerResult)

  /** `checkPermissions` followed by the completion `start` passes to it. */
  function OnStart(c: Coordinator, status: AuthorizationStatus): (r: (Coordinator, seq<Effect>))
    ensures status == Authorized ==> r == (c.(scannerShown := true), [PresentScanner])
    ensures status == NotDetermined ==>
      r.1 == [RequestCameraAccess] && r.0 == c.(requests := c.requests + 1)
    ensures status == Denied || status == Restricted ==> r == (c, [PresentSettingsAlert])
  {
    match status
    case Authorized => (c.(scannerShown := true), [PresentScanner])
    case Denied => (c, [PresentSettingsAlert])
    case Restricted => (c, [PresentSettingsAlert])
    case NotDetermined => (c.(requests := c.requests + 1), [RequestCameraAccess])
  }

  /** The answer to one permission request: scanner on `true`, cancelled
      completion on `false`; that request is then answered. Without an
      outstanding request there is no callback to run. */
  function OnAccessAnswered(c: Coordinator, granted: bool): (r: (Coordinator, seq<Effect>))
    ensures c.requests == 0 ==> r == (c, [])
    ensures c.requests > 0 && granted ==>
      r == (c.(requests := c.requests - 1, scannerShown := true), [PresentScanner])
    ensures c.requests > 0 && !granted ==> r == (c.(requests := c.requests - 1), [Complete(Cancelled)])
  {
    if c.requests == 0 then (c, [])
    else if granted then (c.(requests := c.requests - 1, scannerShown := true), [PresentScanner])
    else (c.(requests := c.requests - 1), [Complete(Cancelled)])
  }

  /** The outward result of every scan result except a payment list. */
  function Outward(s: VM.ScanResult): (r: Option<QrScannerResult>)
    ensures r.None? <==> s.Payments?
  {
    match s
    case Payments(_) => None
    case OnePayment(p) => Some(Decoded(Found(p)))
    case DataFields(fields) => Some(Decoded(NotFound(fields)))
    case ManualInput => Some(ManualEntry)
    case Cancelled => Some(Cancelled)
  }

  /** The scan result an outward result was made from. */
  function Inward(q: QrScannerResult): VM.ScanResult {
    match q
    case Decoded(Found(p)) => VM.OnePayment(p)
    case Decoded(NotFound(fields)) => VM.DataFields(fields)
    case ManualEntry => VM.ManualInput
    case Cancelled => VM.Cancelled
  }

  /** The mapping is one-to-one: a single payment becomes a decoded payment,
      raw fields a not-found outcome, manual input and cancel stay as they are. */
  lemma OutwardRoundTrip(s: VM.ScanResult)
    requires !s.Payments?
    ensures Outward(s).Some? && Inward(Outward(s).value) == s
    ensures s.OnePayment? ==> Outward(s) == Some(Decoded(Found(s.payment)))
    ensures s.DataFields? ==> Outward(s) == Some(Decoded(NotFound(s.fields)))
  {
  }

  /** `dismiss(by:animated:)`. A payment list starts a picker and neither
      dismisses nor completes; every other result dismisses once, then
      completes once with its outward value. */
  function Dismiss(c: Coordinator, s: VM.ScanResult, animated: bool): (r: (Coordinator, seq<Effect>))
    ensures s.Payments? ==> r.1 == [StartPicker(s.payments)] && r.0.pickers == c.pickers + [animated]
    ensures !s.Payments? ==> r.0 == c
    ensures !s.Payments? ==> |r.1| == 2 && r.1[0] == DismissNavigation(animated)
    ensures !s.Payments? ==> r.1[1].Complete? && Inward(r.1[1].result) == s
  {
    match Outward(s)
    case None => (c.(pickers := c.pickers + [animated]), [StartPicker(s.payments)])
    case Some(q) => (c, [DismissNavigation(animated), Complete(q)])
  }

  /** The completion given to a picker: dismiss with the captured flag, then
      complete with the chosen payment. An unknown picker has no callback. */
  function OnPickerCompleted(c: Coordinator, i: nat, p: VM.DecodedPayment): (r: (Coordinator, seq<Effect>))
    ensures i < |c.pickers| ==> r.1 == [DismissNavigation(c.pickers[i]), Complete(Decoded(Found(p)))]
    ensures i >= |c.pickers| ==> r.1 == []
    ensures r.0 == c
  {
    if i < |c.pickers| then (c, [DismissNavigation(c.pickers[i]), Complete(Decoded(Found(p)))])
    else (c, [])
  }

  function Step(c: Coordinator, e: Event): (Coordinator, seq<Effect>) {
    match e
    case Start(status) => OnStart(c, status)
    case AccessAnswered(granted) => OnAccessAnswered(c, granted)
    case ModuleCompleted(s) => if c.scannerShown then Dismiss(c, s, true) else (c, [])
    case PickerCompleted(i, p) => OnPickerCompleted(c, i, p)
    case DismissModals => Dismiss(c, VM.Cancelled, false)
  }

  /** The dismiss-modals signal is a cancel without animation, and it is
      honoured whether or not the scanner was ever shown. */
  lemma DismissModalsIsCancel(c: Coordinator)
    ensures Step(c, DismissModals) == (c, [DismissNavigation(false), Complete(Cancelled)])
  {
  }

  function Run(c: Coordinator, es: seq<Event>): (Coordinator, seq<Effect>)
    decreases |es|
  {
    if es == [] then (c, [])
    else
      var (c1, f1) := Step(c, es[0]);
      var (c2, f2) := Run(c1, es[1..]);
      (c2, f1 + f2)
  }

  /** Nothing has been started and nothing can call back. */
  predicate Idle(c: Coordinator) {
    !c.scannerShown && c.requests == 0 && c.pickers == []
  }

  predicate Quiet(f: Effect) { !f.PresentScanner? && !f.Complete? }

  /** With the camera denied or restricted only the settings alert is shown:
      no event other than the dismiss-modals signal or another start can ever
      present the scanner or complete the coordinator. */
  lemma {:induction false} DeniedStaysQuiet(c: Coordinator, es: seq<Event>)
    requires Idle(c)
    requires forall i :: 0 <= i < |es| ==> !es[i].DismissModals? && !es[i].Start?
    ensures Idle(Run(c, es).0)
    ensures forall i :: 0 <= i < |Run(c, es).1| ==> Quiet(Run(c, es).1[i])
    decreases |es|
  {
    if es != [] {
      var (c1, f1) := Step(c, es[0]);
      assert c1 == c && f1 == [];
      DeniedStaysQuiet(c1, es[1..]);
    }
  }

  /** The denied start itself: only the alert. */
  lemma DeniedStart(es: seq<Event>)
    requires forall i :: 0 <= i < |es| ==> !es[i].DismissModals? && !es[i].Start?
    ensures var r := Run(Created, [Start(Denied)] + es);
      r.1[0] == PresentSettingsAlert &&
      forall i :: 0 <= i < |r.1| ==> Quiet(r.1[i])
  {
    var es' := [Start(Denied)] + es;
    assert es'[0] == Start(Denied) && es'[1..] == es;
    DeniedStaysQuiet(Created, es);
  }

  /** Each undetermined start keeps its own request: two requests answered
      `true` present the scanner twice, and an answer beyond the requests
      does nothing. */
  lemma EveryRequestIsAnswered(c: Coordinator)
    requires c.requests == 0
    ensures var es := [Start(NotDetermined), Start(NotDetermined), AccessAnswered(true), AccessAnswered(true),
                       AccessAnswered(false)];
      Run(c, es).1 == [RequestCameraAccess, RequestCameraAccess, PresentScanner, PresentScanner]
  {
    var es := [Start(NotDetermined), Start(NotDetermined), AccessAnswered(true), AccessAnswered(true),
               AccessAnswered(false)];
    assert es[1..] == [Start(NotDetermined), AccessAnswered(true), AccessAnswered(true), AccessAnswered(false)];
    assert es[1..][1..] == [AccessAnswered(true), AccessAnswered(true), AccessAnswered(false)];
    assert es[1..][1..][1..] == [AccessAnswered(true), AccessAnswered(false)];
    assert es[1..][1..][1..][1..] == [AccessAnswered(false)];
    assert es[1..][1..][1..][1..][1..] == [];
  }

  /** Outstanding requests are counted exactly: with no new start, each
      answer closes one open request, and answers beyond them change
      nothing. */
  lemma {:induction false} AnswersCloseRequests(c: Coordinator, es: seq<Event>)
    requires forall i :: 0 <= i < |es| ==> !es[i].Start?
    ensures Run(c, es).0.requests == if Answers(es) >= c.requests then 0 else c.requests - Answers(es)
    decreases |es|
  {
    if es != [] {
      var r1 := Step(c, es[0]);
      AnswersCloseRequests(r1.0, es[1..]);
      assert Run(c, es).0 == Run(r1.0, es[1..]).0;
      assert Answers(es) == (if es[0].AccessAnswered? then 1 else 0) + Answers(es[1..]);
    }
  }

  predicate IsAnswer(e: Event) { e.AccessAnswered? }

  function Answers(es: seq<Event>): nat {
    CountWhere(es, IsAnswer)
  }

  /** There is no at-most-once guard: two completions of the module give two
      dismissals and two completions of the coordinator. */
  lemma CompletionNotGuarded(c: Coordinator)
    requires c.scannerShown
    ensures Run(c, [ModuleCompleted(VM.Cancelled), ModuleCompleted(VM.Cancelled)]).1
      == [DismissNavigation(true), Complete(Cancelled), DismissNavigation(true), Complete(Cancelled)]
  {
    var es := [ModuleCompleted(VM.Cancelled), ModuleCompleted(VM.Cancelled)];
    assert es[1..] == [ModuleCompleted(VM.Cancelled)];
    assert es[1..][1..] == [];
  }
}

=== FILE: qr_scanner_view.dfy ===
/** The camera-versus-file display mode of `QrScannerView`: what the view
    does with each value the view model emits. Layout is not modelled; only
    the visibility flags, the two state displays, the info label, the
    flashlight button and the number of times capturing was (re)started. */
module QrScannerView {
  import opened Common
  import opened QrScannerViewModel

  datatype View = View(
    cameraActive: bool,            // `isCameraActive`
    fileViewHidden: bool,
    captureHidden: bool,
    holeHidden: bool,
    overlayHidden: bool,
    errorViewHidden: bool,
    holeState: Option<ScannerState>,
    fileState: Option<ScannerState>,
    fileImage: Option<Image>,
    infoLabel: string,
    flashlightSelected: bool,
    captureStarts: nat)

  /** The freshly built view: camera mode, file view hidden, the
      "point the camera" label, flashlight button not selected. The view
      never sets the error view's visibility before binding, so its initial
      value here is arbitrary; binding replaces it (`BindFresh`). */
  function Fresh(): (v: View)
    ensures v.cameraActive && v.fileViewHidden
    ensures !v.captureHidden && !v.holeHidden && !v.overlayHidden
    ensures v.infoLabel == PointCameraText && !v.flashlightSelected
  {
    View(true, true, false, false, false, false, None, None, None, PointCameraText, false, 0)
  }

  /** Camera mode: the live capture is shown (`reset`). */
  predicate CameraMode(v: View) {
    v.cameraActive && v.fileViewHidden && !v.captureHidden && !v.holeHidden && !v.overlayHidden
  }

  /** File mode: the picked image is shown instead (`switchToFileMode`). */
  predicate FileMode(v: View) {
    !v.cameraActive && !v.fileViewHidden && v.captureHidden && v.holeHidden && v.overlayHidden
  }

  /** `reset`: back to camera mode and restart capturing. */
  function Reset(v: View): (r: View)
    ensures CameraMode(r) && r.captureStarts == v.captureStarts + 1
    ensures r.errorViewHidden == v.errorViewHidden && r.holeState == v.holeState
    ensures r.fileState == v.fileState && r.infoLabel == v.infoLabel
    ensures r.flashlightSelected == v.flashlightSelected
  {
    v.(fileViewHidden := true, cameraActive := true, captureHidden := false,
       holeHidden := false, overlayHidden := false, captureStarts := v.captureStarts + 1)
  }

  /** `switchToFileMode(scanningImage:)`. */
  function SwitchToFileMode(v: View, image: Image): (r: View)
    ensures FileMode(r) && r.fileImage == Some(image)
    ensures r.captureStarts == v.captureStarts && r.errorViewHidden == v.errorViewHidden
    ensures r.holeState == v.holeState && r.fileState == v.fileState
    ensures r.infoLabel == v.infoLabel && r.flashlightSelected == v.flashlightSelected
  {
    v.(fileViewHidden := false, fileImage := Some(image), cameraActive := false,
       captureHidden := true, holeHidden := true, overlayHidden := true)
  }

  /** A state value from the view model. In camera mode it goes to the hole
      view and decides the error view; in file mode it goes only to the file
      view. `initial` then forces camera mode. */
  function OnState(v: View, s: ScannerState): (r: View)
    ensures v.cameraActive ==> r.holeState == Some(s) && r.fileState == v.fileState
    ensures v.cameraActive ==> r.errorViewHidden == (s != Fail)
    ensures !v.cameraActive ==> r.fileState == Some(s) && r.holeState == v.holeState
    ensures !v.cameraActive ==> r.errorViewHidden == v.errorViewHidden
    ensures s == Initial ==> CameraMode(r) && r.captureStarts == v.captureStarts + 1
    ensures s != Initial ==> r.cameraActive == v.cameraActive && r.captureStarts == v.captureStarts
    ensures r.infoLabel == v.infoLabel && r.flashlightSelected == v.flashlightSelected
  {
    var shown :=
      if v.cameraActive then v.(holeState := Some(s), errorViewHidden := (s != Fail))
      else v.(fileState := Some(s));
    if s == Initial then Reset(shown) else shown
  }

  /** What the view does with one effect of the view model; effects that
      are not view outputs leave it alone. */
  function Apply(v: View, f: Effect): View {
    match f
    case EmitState(s) => OnState(v, s)
    case EmitUserImage(image) => SwitchToFileMode(v, image)
    case EmitInfoText(text) => v.(infoLabel := text)
    case EmitFlashlight(on) => v.(flashlightSelected := on)
    case _ => v
  }

  function ApplyAll(v: View, fs: seq<Effect>): View
    decreases |fs|
  {
    if fs == [] then v else ApplyAll(Apply(v, fs[0]), fs[1..])
  }

  lemma {:induction false} ApplyAllAppend(v: View, a: seq<Effect>, b: seq<Effect>)
    ensures ApplyAll(v, a + b) == ApplyAll(ApplyAll(v, a), b)
    decreases |a|
  {
    if a == [] {
      assert a + b == b;
    } else {
      assert (a + b)[1..] == a[1..] + b;
      ApplyAllAppend(Apply(v, a[0]), a[1..], b);
    }
  }

  /** Showing a short list of effects is showing them one after another. */
  lemma ApplyAllShort(v: View, a: Effect, b: Effect, c: Effect)
    ensures ApplyAll(v, []) == v
    ensures ApplyAll(v, [a]) == Apply(v, a)
    ensures ApplyAll(v, [a, b]) == Apply(Apply(v, a), b)
    ensures ApplyAll(v, [a, b, c]) == Apply(Apply(Apply(v, a), b), c)
  {
    assert [a][1..] == [];
    assert [a, b][1..] == [b];
    assert [a, b, c][1..] == [b, c];
    assert ApplyAll(Apply(v, a), [b]) == Apply(Apply(v, a), b) by {
      assert [b][1..] == [];
    }
    assert ApplyAll(Apply(Apply(v, a), b), [c]) == Apply(Apply(Apply(v, a), b), c) by {
      assert [c][1..] == [];
    }
  }

  /** The label and the flashlight button show the view model's values. */
  predicate Synced(v: View, m: Model) {
    v.infoLabel == m.infoText && v.flashlightSelected == m.flashlightOn
  }

  /** Binding: the three behaviour relays replay their current values in
      subscription order (state, info text, flashlight). */
  function Bind(v: View, m: Model): (r: View)
    ensures Synced(r, m)
    ensures v.cameraActive ==> r.holeState == Some(m.state)
  {
    ApplyAllShort(v, EmitState(m.state), EmitInfoText(m.infoText), EmitFlashlight(m.flashlightOn));
    ApplyAll(v, [EmitState(m.state), EmitInfoText(m.infoText), EmitFlashlight(m.flashlightOn)])
  }

  /** Binding a fresh view to a fresh view model: camera mode, capturing
      started once, error view hidden. */
  lemma BindFresh()
    ensures var v := Bind(Fresh(), Init());
      CameraMode(v) && v.captureStarts == 1 && v.errorViewHidden && v.holeState == Some(Initial)
  {
    var m := Init();
    ApplyAllShort(Fresh(), EmitState(m.state), EmitInfoText(m.infoText), EmitFlashlight(m.flashlightOn));
  }

  /** One view-model step, with its effects shown by the view, keeps the
      label and the flashlight button in step with the view model. */
  lemma StepKeepsSync(v: View, m: Model, e: Event)
    requires Synced(v, m)
    ensures Synced(ApplyAll(v, Step(m, e).1), Step(m, e).0)
  {
    var fs := Step(m, e).1;
    assert |fs| <= 3;
    if |fs| == 0 {
      ApplyAllShort(v, EmitFlashlight(false), EmitFlashlight(false), EmitFlashlight(false));
    } else if |fs| == 1 {
      ApplyAllShort(v, fs[0], fs[0], fs[0]);
      assert fs == [fs[0]];
    } else if |fs| == 2 {
      ApplyAllShort(v, fs[0], fs[1], fs[1]);
      assert fs == [fs[0], fs[1]];
    } else {
      ApplyAllShort(v, fs[0], fs[1], fs[2]);
      assert fs == [fs[0], fs[1], fs[2]];
    }
  }

  /** The same over any sequence of events. */
  lemma {:induction false} RunKeepsSync(v: View, m: Model, es: seq<Event>)
    requires Synced(v, m)
    ensures Synced(ApplyAll(v, Run(m, es).1), Run(m, es).0)
    decreases |es|
  {
    if es != [] {
      var (m1, f1) := Step(m, es[0]);
      var (m2, f2) := Run(m1, es[1..]);
      StepKeepsSync(v, m, es[0]);
      RunKeepsSync(ApplyAll(v, f1), m1, es[1..]);
      ApplyAllAppend(v, f1, f2);
    }
  }

  /** The view is wholly in one of its two display modes. */
  predicate InOneMode(v: View) {
    CameraMode(v) || FileMode(v)
  }

  /** Whatever the view model emits, the view stays wholly in one mode: a
      state other than `initial` leaves the mode flags alone, `initial`
      resets to camera mode, and a picked image switches to file mode. */
  lemma {:induction false} ApplyAllKeepsMode(v: View, fs: seq<Effect>)
    requires InOneMode(v)
    ensures InOneMode(ApplyAll(v, fs))
    decreases |fs|
  {
    if fs != [] {
      ApplyAllKeepsMode(Apply(v, fs[0]), fs[1..]);
    }
  }

  /** Bound to a view model and driven by any sequence of events, a view
      that starts in one mode never shows a mixture of the two. */
  lemma RunKeepsMode(v: View, m: Model, es: seq<Event>)
    requires InOneMode(v)
    ensures InOneMode(Bind(v, m))
    ensures InOneMode(ApplyAll(Bind(v, m), Run(m, es).1))
  {
    ApplyAllKeepsMode(v, [EmitState(m.state), EmitInfoText(m.infoText), EmitFlashlight(m.flashlightOn)]);
    ApplyAllKeepsMode(Bind(v, m), Run(m, es).1);
  }

  /** After reset the view is in camera mode and capturing again, whatever
      mode it was in; a picked image puts it in file mode. */
  lemma ModeAfterEvents(v: View, m: Model, image: Image)
    ensures CameraMode(ApplyAll(v, Step(m, ResetTapped).1))
    ensures FileMode(ApplyAll(v, Step(m, ImageChosen(image)).1))
  {
    ApplyAllShort(v, EmitState(Initial), EmitInfoText(PointCameraText), EmitFlashlight(false));
    ApplyAllShort(v, EmitUserImage(image), ProcessFileImage(image), EmitFlashlight(false));
  }

  /** In file mode a failure reaches only the file view: the error view
      keeps its visibility. */
  lemma FileModeFailureKeepsErrorView(v: View, m: Model)
    requires FileMode(v)
    ensures var r := ApplyAll(v, Step(m, FileScanFailed).1);
      FileMode(r) && r.fileState == Some(Fail) && r.errorViewHidden == v.errorViewHidden
  {
    ApplyAllShort(v, EmitState(Fail), EmitState(Fail), EmitState(Fail));
  }
}

=== FILE: qr_scanner_view_model.dfy ===
/** The QR-scan view model (`QrScannerViewModel`): a state machine over the
    scanner state, the info text, the flashlight flag, a single timeout timer
    and the results waiting out the post-success delay. Every input the Swift
    class reacts to is an `Event`; every observable output (relay emission,
    decoder call, completion) is an `Effect`. */
module QrScannerViewModel {
  import opened Common

  /** `QrScannerState`. */
  datatype ScannerState = Initial | Loading | Success | Fail

  /** The three info texts. */
  const PointCameraText: string := "Наведите камеру\nна QR-код"
  const ProcessingText: string := "Обрабатываем код..."
  const CompleteText: string := "Готово"

  /** Timeout of a scan attempt and delay before a decoded result is
      delivered. Time itself is not modelled: the timer firing and the delay
      elapsing are events. */
  const ScanTimeoutSec: nat := 60
  const DelayBeforeDismissMs: nat := 1000
  const FlashlightInitiallyOn: bool := false

  /** A payment found by the decoder; its content is the decoder's business. */
  datatype DecodedPayment = DecodedPayment(payload: string)

  /** What the payment-data decoder reports on success. */
  datatype DecodeResult =
    | FieldsDecoded(fields: map<string, string>)
    | PaymentsDecoded(payments: seq<DecodedPayment>)

  /** `QrScannerViewModel.ScanResult`, the module's completion value. */
  datatype ScanResult =
    | Payments(payments: seq<DecodedPayment>)
    | OnePayment(payment: DecodedPayment)
    | DataFields(fields: map<string, string>)
    | ManualInput
    | Cancelled

  /** A picked photo (opaque). */
  datatype Image = Image(id: nat)

  /** The view model's stored state.
      `timeoutTimer` is the `timeoutTimer` reference (timers are numbered);
      `scheduled` holds the timers that are scheduled and neither invalidated
      nor fired; `pending` holds the decode results whose delayed delivery is
      still outstanding, oldest first. */
  datatype Model = Model(
    state: ScannerState,
    infoText: string,
    flashlightOn: bool,
    timeoutTimer: Option<nat>,
    scheduled: set<nat>,
    nextTimer: nat,
    pending: seq<DecodeResult>)

  datatype Event =
    | CaptureResult(payload: string)        // live camera produced a payload
    | DecoderSucceeded(result: DecodeResult)
    | DecoderFailed
    | TimerFired(timer: nat)                // a scheduled timer reached its deadline
    | DismissDelayElapsed                   // the 1000 ms after a success elapsed
    | ResetTapped
    | BackTapped
    | ErrorCloseTapped
    | ManualInputTapped
    | PickImageTapped
    | ImageChosen(image: Image)             // `scanQr(fromImage:)`
    | FileScanSucceeded(payload: string)
    | FileScanFailed
    | FlashlightTapped
    | BecameActive

  datatype Effect =
    | EmitState(state: ScannerState)
    | EmitInfoText(text: string)
    | EmitFlashlight(on: bool)
    | EmitUserImage(image: Image)
    | ShowImagePicker
    | ProcessFileImage(image: Image)
    | StartDecoding(payload: string)
    | Complete(result: ScanResult)

  /** A timeout is pending: the stored timer is still scheduled. */
  predicate Armed(m: Model) {
    m.timeoutTimer.Some? && m.timeoutTimer.value in m.scheduled
  }

  /** Only the stored timer can be scheduled, and it is older than any timer
      still to be created. */
  predicate TimerInv(m: Model) {
    && (forall t :: t in m.scheduled ==> m.timeoutTimer == Some(t))
    && (m.timeoutTimer.Some? ==> m.timeoutTimer.value < m.nextTimer)
  }

  /** Under the invariant at most one timer is scheduled, and it is armed
      exactly when one is. */
  lemma AtMostOneTimer(m: Model)
    requires TimerInv(m)
    ensures |m.scheduled| <= 1
    ensures Armed(m) <==> m.scheduled != {}
  {
    if m.scheduled != {} {
      assert m.scheduled == {m.timeoutTimer.value};
    }
  }

  /** `stopTimer`: invalidate the stored timer and forget it. */
  function StopTimer(m: Model): (r: Model)
    ensures !Armed(r) && r.timeoutTimer == None
    ensures r.scheduled <= m.scheduled
    ensures forall t :: t in m.scheduled && Some(t) != m.timeoutTimer ==> t in r.scheduled
    ensures TimerInv(m) ==> TimerInv(r) && r.scheduled == {}
    ensures r.(timeoutTimer := m.timeoutTimer, scheduled := m.scheduled) == m
  {
    match m.timeoutTimer
    case None => m
    case Some(t) => m.(timeoutTimer := None, scheduled := m.scheduled - {t})
  }

  /** `startTimer`: stop any stored timer, then schedule a fresh one, due
      `ScanTimeoutSec` seconds later. */
  function StartTimer(m: Model): (r: Model)
    ensures Armed(r)
    ensures m.timeoutTimer.Some? && TimerInv(m) ==> r.timeoutTimer != m.timeoutTimer
    ensures TimerInv(m) ==> TimerInv(r) && r.scheduled == {r.timeoutTimer.value}
    ensures r.state == m.state && r.infoText == m.infoText
    ensures r.flashlightOn == m.flashlightOn && r.pending == m.pending
  {
    var s := StopTimer(m);
    s.(timeoutTimer := Some(s.nextTimer), scheduled := s.scheduled + {s.nextTimer},
       nextTimer := s.nextTimer + 1)
  }

  /** The view model right after `init`: initial state, the "point the
      camera" text, flashlight off, and a timeout already armed. */
  function Init(): (r: Model)
    ensures r.state == Initial && r.infoText == PointCameraText
    ensures !r.flashlightOn && r.pending == []
    ensures Armed(r) && TimerInv(r)
  {
    StartTimer(Model(Initial, PointCameraText, FlashlightInitiallyOn, None, {}, 0, []))
  }

  /** `decodeData`: a payload (from the camera or from the file scanner)
      stops the timer -- it is not re-armed -- and starts decoding. */
  function DecodeData(m: Model, payload: string): (r: (Model, seq<Effect>))
    ensures r.0.state == Loading && r.0.infoText == ProcessingText
    ensures !Armed(r.0) && (TimerInv(m) ==> r.0.scheduled == {})
    ensures r.0.flashlightOn == m.flashlightOn && r.0.pending == m.pending
    ensures r.1 == [EmitState(Loading), EmitInfoText(ProcessingText), StartDecoding(payload)]
  {
    var s := StopTimer(m);
    (s.(state := Loading, infoText := ProcessingText),
     [EmitState(Loading), EmitInfoText(ProcessingText), StartDecoding(payload)])
  }

  /** Decoder success: show completion and queue the result for delivery
      after the delay; nothing is completed yet. */
  function OnDecoded(m: Model, d: DecodeResult): (r: (Model, seq<Effect>))
    ensures r.0.state == Success && r.0.infoText == CompleteText
    ensures r.0.pending == m.pending + [d]
    ensures r.0.timeoutTimer == m.timeoutTimer && r.0.scheduled == m.scheduled
    ensures r.0.flashlightOn == m.flashlightOn
    ensures forall i :: 0 <= i < |r.1| ==> !r.1[i].Complete?
  {
    (m.(state := Success, infoText := CompleteText, pending := m.pending + [d]),
     [EmitState(Success), EmitInfoText(CompleteText)])
  }

  /** Decoder failure: fail state, back to the "point the camera" text. */
  function OnDecodeFailed(m: Model): (r: (Model, seq<Effect>))
    ensures r.0 == m.(state := Fail, infoText := PointCameraText)
    ensures r.1 == [EmitState(Fail), EmitInfoText(PointCameraText)]
  {
    (m.(state := Fail, infoText := PointCameraText), [EmitState(Fail), EmitInfoText(PointCameraText)])
  }

  /** `scanTimeout`, reached only through a timer that is still scheduled;
      the non-repeating timer is spent by firing. */
  function OnTimerFired(m: Model, t: nat): (r: (Model, seq<Effect>))
    ensures t in m.scheduled ==> r.0.state == Fail && r.0.infoText == PointCameraText
    ensures t in m.scheduled ==>
      r.0 == m.(scheduled := m.scheduled - {t}, state := Fail, infoText := PointCameraText) &&
      r.1 == [EmitState(Fail), EmitInfoText(PointCameraText)]
    ensures t in m.scheduled && TimerInv(m) ==> !Armed(r.0)
    ensures t !in m.scheduled ==> r == (m, [])
  {
    if t in m.scheduled then
      (m.(scheduled := m.scheduled - {t}, state := Fail, infoText := PointCameraText),
       [EmitState(Fail), EmitInfoText(PointCameraText)])
    else (m, [])
  }

  /** `reset`: re-arm the timer and return to the initial state. */
  function Reset(m: Model): (r: (Model, seq<Effect>))
    ensures r.0.state == Initial && r.0.infoText == PointCameraText && Armed(r.0)
    ensures r.0.flashlightOn == m.flashlightOn && r.0.pending == m.pending
    ensures r.1 == [EmitState(Initial), EmitInfoText(PointCameraText)]
  {
    var s := StartTimer(m);
    (s.(state := Initial, infoText := PointCameraText), [EmitState(Initial), EmitInfoText(PointCameraText)])
  }

  /** `scanQr(fromImage:)`: re-arm the timer, show the image, scan it. */
  function ScanFromImage(m: Model, image: Image): (r: (Model, seq<Effect>))
    ensures Armed(r.0)
    ensures r.0.state == m.state && r.0.infoText == m.infoText
    ensures r.1 == [EmitUserImage(image), ProcessFileImage(image)]
  {
    (StartTimer(m), [EmitUserImage(image), ProcessFileImage(image)])
  }

  /** The classification done when the delay has elapsed: a list of exactly
      one payment becomes that payment; any other list, empty included, stays
      a list. */
  function Classify(d: DecodeResult): (r: ScanResult)
    ensures d.FieldsDecoded? ==> r == DataFields(d.fields)
    ensures d.PaymentsDecoded? && |d.payments| == 1 ==> r == OnePayment(d.payments[0])
    ensures d.PaymentsDecoded? && |d.payments| != 1 ==> r == Payments(d.payments)
    ensures !r.ManualInput? && !r.Cancelled?
  {
    match d
    case FieldsDecoded(fields) => DataFields(fields)
    case PaymentsDecoded(ps) => if |ps| == 1 then OnePayment(ps[0]) else Payments(ps)
  }

  /** The decode result a classified scan result came from. */
  function Unclassify(s: ScanResult): Option<DecodeResult> {
    match s
    case Payments(ps) => Some(PaymentsDecoded(ps))
    case OnePayment(p) => Some(PaymentsDecoded([p]))
    case DataFields(fields) => Some(FieldsDecoded(fields))
    case ManualInput => None
    case Cancelled => None
  }

  /** Classification loses nothing: the decode result can be recovered. */
  lemma ClassifyRoundTrip(d: DecodeResult)
    ensures Unclassify(Classify(d)) == Some(d)
  {
    if d.PaymentsDecoded? && |d.payments| == 1 {
      assert [d.payments[0]] == d.payments;
    }
  }

  /** The delayed block of `handleResult`, run `DelayBeforeDismissMs` after
      the success: deliver the oldest queued result, classified, through
      `onComplete`. Every success waits the same delay, so results are
      delivered in the order they were queued. Nothing else changes. */
  function DeliverResult(m: Model): (r: (Model, seq<Effect>))
    ensures m.pending == [] ==> r == (m, [])
    ensures m.pending != [] ==>
      r.0 == m.(pending := m.pending[1..]) && r.1 == [Complete(Classify(m.pending[0]))]
  {
    if m.pending == [] then (m, [])
    else (m.(pending := m.pending[1..]), [Complete(Classify(m.pending[0]))])
  }

  /** One event, dispatched as `bind(input:)`, the decoder callback, the
      timer, the delayed block and the app-activation observer do. */
  function Step(m: Model, e: Event): (r: (Model, seq<Effect>))
    ensures TimerInv(m) ==> TimerInv(r.0)
  {
    match e
    case CaptureResult(payload) => DecodeData(m, payload)
    case DecoderSucceeded(d) => OnDecoded(m, d)
    case DecoderFailed => OnDecodeFailed(m)
    case TimerFired(t) => OnTimerFired(m, t)
    case DismissDelayElapsed => DeliverResult(m)
    case ResetTapped => Reset(m)
    case BackTapped => (m, [Complete(Cancelled)])
    case ErrorCloseTapped => (m, [Complete(Cancelled)])
    case ManualInputTapped => (m, [Complete(ManualInput)])
    case PickImageTapped => (StopTimer(m), [ShowImagePicker])
    case ImageChosen(image) => ScanFromImage(m, image)
    case FileScanSucceeded(payload) => DecodeData(m, payload)
    case FileScanFailed => (m.(state := Fail), [EmitState(Fail)])
    case FlashlightTapped => (m.(flashlightOn := !m.flashlightOn), [EmitFlashlight(!m.flashlightOn)])
    case BecameActive => (m, [EmitFlashlight(m.flashlightOn)])
  }

  /** Pick-image pauses the timeout and asks for the picker, touching
      nothing else; a file-scanner failure fails without changing the text
      or the timer. */
  lemma PickImageAndFileFailure(m: Model)
    ensures var r := Step(m, PickImageTapped);
      !Armed(r.0) && r.0.state == m.state && r.0.infoText == m.infoText && r.1 == [ShowImagePicker]
    ensures var r := Step(m, FileScanFailed);
      r.0.state == Fail && r.0.infoText == m.infoText && Armed(r.0) == Armed(m) && r.1 == [EmitState(Fail)]
  {
  }

  /** A flashlight tap negates the flag and emits the new value. */
  lemma FlashlightTapInStep(m: Model)
    ensures var r := Step(m, FlashlightTapped);
      r.0 == m.(flashlightOn := !m.flashlightOn) && r.1 == [EmitFlashlight(r.0.flashlightOn)]
  {
  }

  /** Becoming active re-emits the flag without changing anything. */
  lemma BecameActiveInStep(m: Model)
    ensures Step(m, BecameActive) == (m, [EmitFlashlight(m.flashlightOn)])
  {
  }

  /** Back and error-close cancel, manual input asks for manual entry; none
      of them changes the stored state (the timer keeps running). */
  lemma ExitEventsInStep(m: Model)
    ensures Step(m, BackTapped) == (m, [Complete(Cancelled)])
    ensures Step(m, ErrorCloseTapped) == (m, [Complete(Cancelled)])
    ensures Step(m, ManualInputTapped) == (m, [Complete(ManualInput)])
  {
  }

  /** A file-scanner success behaves exactly like a camera payload. */
  lemma FileScanIsCapture(m: Model, payload: string)
    ensures Step(m, FileScanSucceeded(payload)) == Step(m, CaptureResult(payload))
  {
  }

  /** Events in order; the effects of all of them, in order. */
  function Run(m: Model, es: seq<Event>): (Model, seq<Effect>)
    decreases |es|
  {
    if es == [] then (m, [])
    else
      var (m1, f1) := Step(m, es[0]);
      var (m2, f2) := Run(m1, es[1..]);
      (m2, f1 + f2)
  }

  /** After any sequence of events from a well-formed state at most one
      timer is scheduled. */
  lemma {:induction false} RunKeepsOneTimer(m: Model, es: seq<Event>)
    requires TimerInv(m)
    ensures TimerInv(Run(m, es).0) && |Run(m, es).0.scheduled| <= 1
    decreases |es|
  {
    if es == [] {
      AtMostOneTimer(m);
    } else {
      RunKeepsOneTimer(Step(m, es[0]).0, es[1..]);
    }
  }

  /** From construction onward at most one timer is ever scheduled. */
  lemma OneTimerFromInit(es: seq<Event>)
    ensures |Run(Init(), es).0.scheduled| <= 1
  {
    RunKeepsOneTimer(Init(), es);
  }

  predicate IsFlashlightTap(e: Event) { e.FlashlightTapped? }

  function FlashlightTaps(es: seq<Event>): nat {
    CountWhere(es, IsFlashlightTap)
  }

  /** The flashlight is orthogonal to everything else: after any events it
      is the initial flag negated once per tap. */
  lemma {:induction false} FlashlightParity(m: Model, es: seq<Event>)
    ensures Run(m, es).0.flashlightOn == (m.flashlightOn != (FlashlightTaps(es) % 2 == 1))
    decreases |es|
  {
    if es != [] {
      var m1 := Step(m, es[0]).0;
      FlashlightParity(m1, es[1..]);
      assert FlashlightTaps(es) == (if es[0].FlashlightTapped? then 1 else 0) + FlashlightTaps(es[1..]);
    }
  }

  /** The decode results the decoder reported, in order. */
  function Successes(es: seq<Event>): seq<DecodeResult>
    decreases |es|
  {
    if es == [] then []
    else (if es[0].DecoderSucceeded? then [es[0].result] else []) + Successes(es[1..])
  }

  /** The decode results handed to `onComplete`, read back from the
      completions that carry one, in order. */
  function Delivered(fx: seq<Effect>): seq<DecodeResult>
    decreases |fx|
  {
    if fx == [] then []
    else
      (if fx[0].Complete? && Unclassify(fx[0].result).Some? then [Unclassify(fx[0].result).value] else [])
      + Delivered(fx[1..])
  }

  lemma {:induction false} DeliveredAppend(a: seq<Effect>, b: seq<Effect>)
    ensures Delivered(a + b) == Delivered(a) + Delivered(b)
    decreases |a|
  {
    if a == [] {
      assert a + b == b;
    } else {
      assert (a + b)[1..] == a[1..] + b;
      DeliveredAppend(a[1..], b);
    }
  }

  /** Effects with no completion carrying a decode result deliver nothing. */
  lemma {:induction false} DeliveredNone(fx: seq<Effect>)
    requires forall i :: 0 <= i < |fx| ==> !(fx[i].Complete? && Unclassify(fx[i].result).Some?)
    ensures Delivered(fx) == []
    decreases |fx|
  {
    if fx != [] {
      DeliveredNone(fx[1..]);
    }
  }

  /** One event: what it delivers followed by what it leaves queued is what
      was queued before followed by what it decoded. */
  lemma StepDelivers(m: Model, e: Event)
    ensures Delivered(Step(m, e).1) + Step(m, e).0.pending
         == m.pending + (if e.DecoderSucceeded? then [e.result] else [])
  {
    match e
    case DismissDelayElapsed =>
      if m.pending != [] {
        ClassifyRoundTrip(m.pending[0]);
        assert Delivered(Step(m, e).1) == [m.pending[0]];
        assert [m.pending[0]] + m.pending[1..] == m.pending;
      } else {
        DeliveredNone(Step(m, e).1);
      }
    case _ =>
      DeliveredNone(Step(m, e).1);
  }

  /** Delayed delivery is first-in first-out and loses nothing: over any
      events, the results completed followed by the results still waiting
      are the results waiting at the start followed by every decoder
      success, in order. */
  lemma {:induction false} RunDeliversInOrder(m: Model, es: seq<Event>)
    ensures Delivered(Run(m, es).1) + Run(m, es).0.pending == m.pending + Successes(es)
    decreases |es|
  {
    if es != [] {
      var r1 := Step(m, es[0]);
      var r2 := Run(r1.0, es[1..]);
      assert Run(m, es) == (r2.0, r1.1 + r2.1);
      StepDelivers(m, es[0]);
      RunDeliversInOrder(r1.0, es[1..]);
      DeliveredAppend(r1.1, r2.1);
      var own := if es[0].DecoderSucceeded? then [es[0].result] else [];
      assert Successes(es) == own + Successes(es[1..]);
      Regroup(Delivered(r1.1), Delivered(r2.1), r1.0.pending, r2.0.pending, m.pending, own, Successes(es[1..]));
    }
  }

  /** The queue bookkeeping of one step composed with the rest of a run. */
  lemma Regroup<T>(d1: seq<T>, d2: seq<T>, p1: seq<T>, p2: seq<T>, pre: seq<T>, own: seq<T>, rest: seq<T>)
    requires d1 + p1 == pre + own
    requires d2 + p2 == p1 + rest
    ensures (d1 + d2) + p2 == pre + (own + rest)
  {
    calc {
      (d1 + d2) + p2;
      d1 + (d2 + p2);
      d1 + (p1 + rest);
      (d1 + p1) + rest;
    }
  }

  /** From construction, every completion carrying a decode result delivers
      the decoder's successes in order, each once: what has been delivered
      is a prefix of the successes and the rest is still queued. */
  lemma DeliveredFromInit(es: seq<Event>)
    ensures Delivered(Run(Init(), es).1) + Run(Init(), es).0.pending == Successes(es)
    ensures Delivered(Run(Init(), es).1) <= Successes(es)
  {
    RunDeliversInOrder(Init(), es);
    assert Init().pending + Successes(es) == Successes(es);
  }

  /** Two flashlight taps give back the same state. */
  lemma DoubleTapIsIdentity(m: Model)
    ensures Run(m, [FlashlightTapped, FlashlightTapped]).0 == m
  {
    var m1 := Step(m, FlashlightTapped).0;
    assert Run(m, [FlashlightTapped, FlashlightTapped]).0 == Run(m1, [FlashlightTapped]).0;
  }
}

=== FILE: tab_bar_coordinator.dfy ===
/** `TabBarCoordinator`'s deep-link handling: a one-shot pending action, a
    fixed table from intents to navigations, the tab-selection and
    pop-to-root rules, and the landing flow it can start. */
module TabBarCoordinator {
  import opened Common
  import LVM = DynamicPromoLandingViewModel
  import LC = DynamicPromoLandingCoordinator

  const ChatTabIndex: nat := 3

  /** A view controller on a navigation stack: the payment screen
      (`PaymentViewController`) or any other, by name. */
  datatype Screen = PaymentView | OtherScreen(name: string)

  /** A tab's root controller: a navigation controller with its stack (root
      first), or some other controller. */
  datatype Tab = NavigationTab(stack: seq<Screen>) | PlainTab

  datatype TabBar = TabBar(tabs: seq<Tab>, selected: nat)

  /** `url.type`, the classification of a deep-link URL. */
  datatype DeeplinkType =
    | Main | Templates | Autopayments | History | Profile
    | Catalog(category: string)
    | NcpkFull
    | UnknownOrOldNavigation | Tutorial
    | PersonalOffer(offerId: string)
    | OpenDeposit(prodCode: Option<string>)
    | FaRequest(faOfferId: string)
    | Landing(landingId: string)
    | Legacy

  /** Home-screen shortcut types; `OtherShortcut` is any value the table
      does not name. */
  datatype ForceTouchType =
    | FillPhone | Transfer | HistoryShortcut | TemplatesShortcut | PushNotificationDetail
    | OtherShortcut(code: int)

  /** `DeeplinkAction`. */
  datatype DeeplinkAction = Deeplink(url: Url) | ForceTouch(shortcut: ForceTouchType)

  /** The navigation the dispatch table chooses. */
  datatype Navigation =
    | OpenMainScreen | OpenPaymentScreen | OpenHistoryScreen | OpenMoreScreen | OpenChatScreen
    | OpenPaymentCategory(category: string)
    | OpenFullNcpk
    | PushOldNavigation(oldUrl: Url)
    | OpenPersonalPropose(proposeOfferId: string)
    | OpenDepositCalculator(depositCode: Option<string>)
    | OpenShortLoanForm(loanOfferId: string)
    | OpenLanding(id: string)
    | PushNavigation(navUrl: Url)
    | PushForceTouch(touch: ForceTouchType)
    | OpenPushDetail
    | NoNavigation

  /** The collaborators the coordinator consults: the landing feature
      toggle, the landing service's list, the URL classifier, and the
      category names `CatalogService.category(withName:)` finds. */
  datatype Env = Env(landingToggle: bool, landings: seq<LVM.LandingData>, linkType: Url -> DeeplinkType,
                     categories: set<string>)

  /** Closure identities handed to a landing flow. */
  const DeeplinkRouterOpenUrl: Handler := Handler(0)
  const LandingCompletion: Handler := Handler(1)
  const LandingRelay: Handler := Handler(2)

  datatype Effect =
    | ShowPaymentTemplates(from: Screen)
    | ShowPaymentCategory(from: Screen, category: string)
    | StartFullNcpk(from: Screen)
    | StartLandingFlow(flow: LC.Coordinator, tab: nat)
    | External(navigation: Navigation)     // routing or a coordinator outside this model

  /** `tabBarController` is held weakly, hence optional. */
  datatype Coordinator = Coordinator(tabBar: Option<TabBar>, pending: Option<DeeplinkAction>)

  /** The dispatch table of `checkDeeplink`. */
  function Dispatch(a: DeeplinkAction, env: Env): Navigation {
    match a
    case Deeplink(url) =>
      (match env.linkType(url)
       case Main => OpenMainScreen
       case Templates => OpenPaymentScreen
       case Autopayments => OpenPaymentScreen
       case History => OpenHistoryScreen
       case Profile => OpenMoreScreen
       case Catalog(category) => OpenPaymentCategory(category)
       case NcpkFull => OpenFullNcpk
       case UnknownOrOldNavigation => PushOldNavigation(url)
       case Tutorial => PushOldNavigation(url)
       case PersonalOffer(id) => OpenPersonalPropose(id)
       case OpenDeposit(code) => OpenDepositCalculator(code)
       case FaRequest(id) => OpenShortLoanForm(id)
       case Landing(id) => if env.landingToggle then OpenLanding(id) else OpenMainScreen
       case Legacy => PushNavigation(url))
    case ForceTouch(t) =>
      (match t
       case FillPhone => PushForceTouch(t)
       case Transfer => PushForceTouch(t)
       case HistoryShortcut => OpenHistoryScreen
       case TemplatesShortcut => OpenPaymentScreen
       case PushNotificationDetail => OpenPushDetail
       case OtherShortcut(_) => NoNavigation)
  }

  /** `popToRootViewController` on one tab; other controllers are untouched. */
  function PopToRoot(t: Tab): Tab {
    match t
    case NavigationTab(stack) => if stack == [] then t else NavigationTab(stack[..1])
    case PlainTab => t
  }

  /** `tabBarConrollersPopToRoot`: every navigation tab keeps only its root,
      every other tab stays as it is. */
  function PopAll(tabs: seq<Tab>): (r: seq<Tab>)
    ensures |r| == |tabs|
    ensures forall i :: 0 <= i < |tabs| && tabs[i].PlainTab? ==> r[i] == tabs[i]
    ensures forall i :: 0 <= i < |tabs| && tabs[i].NavigationTab? ==>
      r[i].NavigationTab? && r[i].stack == tabs[i].stack[..if tabs[i].stack == [] then 0 else 1]
    decreases |tabs|
  {
    if tabs == [] then [] else [PopToRoot(tabs[0])] + PopAll(tabs[1..])
  }

  /** Popping to root twice is popping once. */
  lemma PopAllIdempotent(tabs: seq<Tab>)
    ensures PopAll(PopAll(tabs)) == PopAll(tabs)
  {
    var once := PopAll(tabs);
    var twice := PopAll(once);
    assert forall i :: 0 <= i < |tabs| ==> twice[i] == once[i];
  }

  /** `popViewController`: the top screen goes, unless it is the root. */
  function PopOne(t: Tab): (r: Tab)
    ensures t.NavigationTab? && |t.stack| > 1 ==>
      r.NavigationTab? && r.stack == t.stack[..|t.stack| - 1]
    ensures !(t.NavigationTab? && |t.stack| > 1) ==> r == t
  {
    match t
    case NavigationTab(stack) => if |stack| > 1 then NavigationTab(stack[..|stack| - 1]) else t
    case PlainTab => t
  }

  /** Setting `selectedIndex`; an index with no tab is ignored. */
  function Select(tb: TabBar, i: nat): (r: TabBar)
    ensures r.tabs == tb.tabs
    ensures r.selected == (if i < |tb.tabs| then i else tb.selected)
  {
    if i < |tb.tabs| then tb.(selected := i) else tb
  }

  /** Tab `i` exists and is a navigation controller with at least one
      screen. */
  predicate HasTop(tb: TabBar, i: nat) {
    i < |tb.tabs| && tb.tabs[i].NavigationTab? && tb.tabs[i].stack != []
  }

  /** `viewControllers.last` of tab `i`. */
  function TopOf(tb: TabBar, i: nat): Screen
    requires HasTop(tb, i)
  {
    tb.tabs[i].stack[|tb.tabs[i].stack| - 1]
  }

  /** The guard of `checkDeeplink`: the selected tab is a navigation
      controller with a root screen. */
  predicate RootAvailable(tb: TabBar) {
    tb.selected < |tb.tabs| && tb.tabs[tb.selected].NavigationTab? && tb.tabs[tb.selected].stack != []
  }

  /** `landings.first(where: { $0.landingId == id })`. */
  function FindLanding(ls: seq<LVM.LandingData>, id: string): (r: Option<LVM.LandingData>)
    ensures r.None? <==> forall i :: 0 <= i < |ls| ==> ls[i].landingId != id
    ensures r.Some? ==> exists i :: 0 <= i < |ls| && ls[i] == r.value && ls[i].landingId == id &&
                                    forall j :: 0 <= j < i ==> ls[j].landingId != id
    decreases |ls|
  {
    if ls == [] then None
    else if ls[0].landingId == id then Some(ls[0])
    else
      var r := FindLanding(ls[1..], id);
      assert r.Some? ==> exists i :: 1 <= i < |ls| && ls[i] == r.value && ls[i].landingId == id &&
                                     forall j :: 0 <= j < i ==> ls[j].landingId != id by {
        if r.Some? {
          var k :| 0 <= k < |ls[1..]| && ls[1..][k] == r.value && ls[1..][k].landingId == id &&
                   forall j :: 0 <= j < k ==> ls[1..][j].landingId != id;
          assert ls[k + 1] == r.value;
          assert forall j :: 1 <= j < k + 1 ==> ls[j].landingId != id by {
            forall j | 1 <= j < k + 1 ensures ls[j].landingId != id {
              assert ls[j] == ls[1..][j - 1];
            }
          }
        }
      }
      r
  }

  /** The landing flow `openLanding` creates: the router as link opener, and
      a completion that pops one screen off the tab it was opened on. */
  function LandingFlow(l: LVM.LandingData): LC.Coordinator {
    LC.Coordinator(l, Some(DeeplinkRouterOpenUrl), Some(LandingCompletion), LandingRelay)
  }

  /** The navigations `checkDeeplink` hands to a router or a coordinator
      outside this model, with no check of the tab bar's own. */
  predicate HandedOutside(nav: Navigation) {
    nav.PushOldNavigation? || nav.OpenPersonalPropose? || nav.OpenDepositCalculator? ||
    nav.OpenShortLoanForm? || nav.PushNavigation? || nav.PushForceTouch? || nav == OpenPushDetail
  }

  /** What each navigation does to the tab bar. The tab screens pop every
      tab to its root and select their tab -- main 0, history 2, chat 3,
      more 4 -- except the payment screen, which selects tab 1 without
      popping and shows templates from that tab's top screen. A category
      selects tab 1 too, and is shown only from a payment screen on top of
      it and only for a category the catalog knows; the full credit flow
      starts from the top screen of tab 0, if it has one. */
  function Perform(tb: TabBar, nav: Navigation, env: Env): (r: (TabBar, seq<Effect>))
    ensures nav == OpenMainScreen ==> r == (Select(tb.(tabs := PopAll(tb.tabs)), 0), [])
    ensures nav == OpenHistoryScreen ==> r == (Select(tb.(tabs := PopAll(tb.tabs)), 2), [])
    ensures nav == OpenChatScreen ==> r == (Select(tb.(tabs := PopAll(tb.tabs)), ChatTabIndex), [])
    ensures nav == OpenMoreScreen ==> r == (Select(tb.(tabs := PopAll(tb.tabs)), 4), [])
    ensures nav == OpenPaymentScreen ==> r.0 == Select(tb, 1)
    ensures nav == OpenPaymentScreen ==>
      (r.1 != [] <==> 1 < |tb.tabs| && tb.tabs[1].NavigationTab? && tb.tabs[1].stack != [])
    ensures nav == OpenPaymentScreen && r.1 != [] ==>
      r.1 == [ShowPaymentTemplates(tb.tabs[1].stack[|tb.tabs[1].stack| - 1])]
    ensures nav.OpenPaymentCategory? ==> r.0 == Select(tb, 1)
    ensures nav.OpenPaymentCategory? ==>
      (r.1 != [] <==> HasTop(tb, 1) && TopOf(tb, 1) == PaymentView && nav.category in env.categories)
    ensures nav.OpenPaymentCategory? && r.1 != [] ==> r.1 == [ShowPaymentCategory(PaymentView, nav.category)]
    ensures nav == OpenFullNcpk ==> r.0 == tb && (r.1 != [] <==> HasTop(tb, 0))
    ensures nav == OpenFullNcpk && r.1 != [] ==> r.1 == [StartFullNcpk(TopOf(tb, 0))]
    ensures nav.OpenLanding? ==> r.0 == tb
    ensures nav.OpenLanding? && RootAvailable(tb) ==>
      (r.1 == [] <==> FindLanding(env.landings, nav.id).None?)
    ensures nav.OpenLanding? && r.1 != [] ==>
      FindLanding(env.landings, nav.id).Some? &&
      r.1 == [StartLandingFlow(LandingFlow(FindLanding(env.landings, nav.id).value), tb.selected)]
    ensures HandedOutside(nav) ==> r == (tb, [External(nav)])
    ensures nav == NoNavigation ==> r == (tb, [])
  {
    match nav
    case OpenMainScreen => (Select(tb.(tabs := PopAll(tb.tabs)), 0), [])
    case OpenHistoryScreen => (Select(tb.(tabs := PopAll(tb.tabs)), 2), [])
    case OpenChatScreen => (Select(tb.(tabs := PopAll(tb.tabs)), ChatTabIndex), [])
    case OpenMoreScreen => (Select(tb.(tabs := PopAll(tb.tabs)), 4), [])
    case OpenPaymentScreen =>
      var fx :=
        if 1 < |tb.tabs| && tb.tabs[1].NavigationTab? && tb.tabs[1].stack != [] then
          [ShowPaymentTemplates(tb.tabs[1].stack[|tb.tabs[1].stack| - 1])]
        else [];
      (Select(tb, 1), fx)
    case OpenPaymentCategory(name) =>
      var fx :=
        if HasTop(tb, 1) && TopOf(tb, 1) == PaymentView && name in env.categories then
          [ShowPaymentCategory(PaymentView, name)]
        else [];
      (Select(tb, 1), fx)
    case OpenFullNcpk =>
      if HasTop(tb, 0) then (tb, [StartFullNcpk(TopOf(tb, 0))]) else (tb, [])
    case OpenLanding(id) =>
      if tb.selected < |tb.tabs| && tb.tabs[tb.selected].NavigationTab? then
        match FindLanding(env.landings, id)
        case None => (tb, [])
        case Some(l) => (tb, [StartLandingFlow(LandingFlow(l), tb.selected)])
      else (tb, [])
    case NoNavigation => (tb, [])
    case _ => (tb, [External(nav)])
  }

  /** The tab each navigation selects, if any, as assigned to
      `selectedIndex` by the screen-opening functions. */
  function TargetTab(nav: Navigation): Option<nat> {
    match nav
    case OpenMainScreen => Some(0)
    case OpenPaymentScreen => Some(1)
    case OpenPaymentCategory(_) => Some(1)
    case OpenHistoryScreen => Some(2)
    case OpenChatScreen => Some(ChatTabIndex)
    case OpenMoreScreen => Some(4)
    case _ => None
  }

  /** The navigations that pop every tab to its root before selecting. */
  predicate PopsToRoot(nav: Navigation) {
    nav == OpenMainScreen || nav == OpenHistoryScreen || nav == OpenChatScreen || nav == OpenMoreScreen
  }

  /** Whatever the navigation, the tab bar keeps its tabs and every tab its
      root screen; a stack only ever loses screens from the top, all of them
      but the root for the four tab screens and none otherwise; the selection
      moves only to the navigation's own tab. */
  lemma {:induction false} PerformKeepsRoots(tb: TabBar, nav: Navigation, env: Env)
    ensures var r := Perform(tb, nav, env).0;
      && |r.tabs| == |tb.tabs|
      && (forall i :: 0 <= i < |tb.tabs| ==> r.tabs[i].NavigationTab? == tb.tabs[i].NavigationTab?)
      && (forall i :: 0 <= i < |tb.tabs| && tb.tabs[i].NavigationTab? ==>
            r.tabs[i].stack <= tb.tabs[i].stack &&
            (tb.tabs[i].stack != [] ==> r.tabs[i].stack != [] && r.tabs[i].stack[0] == tb.tabs[i].stack[0]))
      && (PopsToRoot(nav) ==> r.tabs == PopAll(tb.tabs))
      && (!PopsToRoot(nav) ==> r.tabs == tb.tabs)
      && r.selected == (if TargetTab(nav).Some? && TargetTab(nav).value < |tb.tabs| then TargetTab(nav).value
                        else tb.selected)
  {
    var r := Perform(tb, nav, env).0;
    if PopsToRoot(nav) {
      forall i | 0 <= i < |tb.tabs| && tb.tabs[i].NavigationTab?
        ensures r.tabs[i].stack <= tb.tabs[i].stack
      {
        assert r.tabs[i].stack == tb.tabs[i].stack[..if tb.tabs[i].stack == [] then 0 else 1];
      }
    }
  }

  /** What the table can choose: a URL never leads to the chat tab, a
      shortcut route, push detail or nothing; a routed URL is handed on
      unchanged; a landing is opened only with the toggle on and for the
      URL's own landing id. */
  lemma DispatchRange(a: DeeplinkAction, env: Env)
    ensures var nav := Dispatch(a, env);
      && (a.Deeplink? ==>
            nav != NoNavigation && nav != OpenChatScreen && !nav.PushForceTouch? && nav != OpenPushDetail)
      && (nav.PushOldNavigation? ==> a == Deeplink(nav.oldUrl))
      && (nav.PushNavigation? ==> a == Deeplink(nav.navUrl))
      && (nav.PushForceTouch? ==> a == ForceTouch(nav.touch))
      && (nav.OpenLanding? ==> a.Deeplink? && env.landingToggle && env.linkType(a.url) == Landing(nav.id))
  {
  }

  /** `checkDeeplink`: take the pending action out first, then dispatch it
      if the selected tab has a root screen. */
  function CheckDeeplink(c: Coordinator, env: Env): (r: (Coordinator, seq<Effect>))
    ensures r.0.pending.None?
    ensures c.pending.None? ==> r == (c, [])
    ensures r.0.tabBar.Some? <==> c.tabBar.Some?
    ensures c.tabBar.None? || !RootAvailable(c.tabBar.value) ==> r == (c.(pending := None), [])
  {
    match c.pending
    case None => (c, [])
    case Some(a) =>
      var cleared := c.(pending := None);
      if c.tabBar.None? || !RootAvailable(c.tabBar.value) then (cleared, [])
      else
        var (tb, fx) := Perform(c.tabBar.value, Dispatch(a, env), env);
        (cleared.(tabBar := Some(tb)), fx)
  }

  /** Over every pending action: the tab bar keeps its tabs and their root
      screens, and the selection stays or moves to the tab the dispatched
      navigation names. */
  lemma CheckDeeplinkKeepsRoots(c: Coordinator, env: Env)
    requires c.tabBar.Some?
    ensures var r := CheckDeeplink(c, env).0;
      var tb := c.tabBar.value;
      && r.tabBar.Some? && |r.tabBar.value.tabs| == |tb.tabs|
      && (forall i :: 0 <= i < |tb.tabs| && tb.tabs[i].NavigationTab? && tb.tabs[i].stack != [] ==>
            r.tabBar.value.tabs[i].NavigationTab? && r.tabBar.value.tabs[i].stack != [] &&
            r.tabBar.value.tabs[i].stack[0] == tb.tabs[i].stack[0])
      && (r.tabBar.value.selected == tb.selected ||
          (c.pending.Some? && TargetTab(Dispatch(c.pending.value, env)) == Some(r.tabBar.value.selected)))
  {
    if c.pending.Some? && RootAvailable(c.tabBar.value) {
      PerformKeepsRoots(c.tabBar.value, Dispatch(c.pending.value, env), env);
    }
  }

  /** The pending action is consumed once: checking again does nothing. */
  lemma CheckDeeplinkIsOneShot(c: Coordinator, env: Env)
    ensures var r := CheckDeeplink(c, env).0;
      CheckDeeplink(r, env) == (r, [])
  {
  }

  /** `openDeeplink(url:)`: store the link and dispatch it at once. */
  function OpenDeeplink(c: Coordinator, url: Url, env: Env): (r: (Coordinator, seq<Effect>))
    ensures r.0.pending.None?
    ensures c.tabBar.Some? && RootAvailable(c.tabBar.value) ==>
      r == (c.(pending := None, tabBar := Some(Perform(c.tabBar.value, Dispatch(Deeplink(url), env), env).0)),
            Perform(c.tabBar.value, Dispatch(Deeplink(url), env), env).1)
    ensures c.tabBar.None? || !RootAvailable(c.tabBar.value) ==> r == (c.(pending := None), [])
  {
    CheckDeeplink(c.(pending := Some(Deeplink(url))), env)
  }

  /** Deep-link kinds routed outside the tab bar. */
  predicate RoutedOutside(kind: DeeplinkType) {
    kind.NcpkFull? || kind.UnknownOrOldNavigation? || kind.Tutorial? || kind.PersonalOffer? ||
    kind.OpenDeposit? || kind.FaRequest? || kind.Legacy?
  }

  /** The table for URLs, seen on the tab bar: main, history and profile pop
      every tab to its root and select 0, 2 and 4; templates and autopayments
      select 1 without popping; a catalog selects 1 and shows the category
      iff the payment screen is on top of tab 1 and the catalog knows the
      name; full ncpk starts the credit flow from tab 0's top screen iff
      there is one; the remaining kinds leave the tab bar alone and hand the
      link to one outside collaborator. */
  lemma DeeplinkTabTargets(c: Coordinator, env: Env, url: Url)
    requires c.tabBar.Some? && RootAvailable(c.tabBar.value)
    ensures var tb := c.tabBar.value;
      var popped := tb.(tabs := PopAll(tb.tabs));
      var (c1, fx) := CheckDeeplink(c.(pending := Some(Deeplink(url))), env);
      var kind := env.linkType(url);
      && (kind == Main ==> c1.tabBar == Some(Select(popped, 0)) && fx == [])
      && (kind == Templates || kind == Autopayments ==> c1.tabBar == Some(Select(tb, 1)))
      && (kind == History ==> c1.tabBar == Some(Select(popped, 2)) && fx == [])
      && (kind == Profile ==> c1.tabBar == Some(Select(popped, 4)) && fx == [])
      && (kind.Catalog? ==> c1.tabBar == Some(Select(tb, 1)))
      && (kind.Catalog? && HasTop(tb, 1) && TopOf(tb, 1) == PaymentView && kind.category in env.categories ==>
            fx == [ShowPaymentCategory(PaymentView, kind.category)])
      && (kind.Catalog? && !(HasTop(tb, 1) && TopOf(tb, 1) == PaymentView && kind.category in env.categories) ==>
            fx == [])
      && (RoutedOutside(kind) ==> c1.tabBar == c.tabBar)
      && (kind == NcpkFull && HasTop(tb, 0) ==> fx == [StartFullNcpk(TopOf(tb, 0))])
      && (kind == NcpkFull && !HasTop(tb, 0) ==> fx == [])
      && (kind == UnknownOrOldNavigation || kind == Tutorial ==> fx == [External(PushOldNavigation(url))])
      && (kind.PersonalOffer? ==> fx == [External(OpenPersonalPropose(kind.offerId))])
      && (kind.OpenDeposit? ==> fx == [External(OpenDepositCalculator(kind.prodCode))])
      && (kind.FaRequest? ==> fx == [External(OpenShortLoanForm(kind.faOfferId))])
      && (kind == Legacy ==> fx == [External(PushNavigation(url))])
  {
  }

  /** The table for home-screen shortcuts: history and templates behave
      exactly as their deep links, fill-phone and transfer go to the outside router,
      push detail opens the detail screen, anything else does nothing. */
  lemma ShortcutTargets(c: Coordinator, env: Env, t: ForceTouchType, historyUrl: Url, templatesUrl: Url)
    requires c.tabBar.Some? && RootAvailable(c.tabBar.value)
    requires env.linkType(historyUrl) == History && env.linkType(templatesUrl) == Templates
    ensures var tb := c.tabBar.value;
      var (c1, fx) := CheckDeeplink(c.(pending := Some(ForceTouch(t))), env);
      && (t == HistoryShortcut ==>
            (c1, fx) == CheckDeeplink(c.(pending := Some(Deeplink(historyUrl))), env))
      && (t == TemplatesShortcut ==>
            (c1, fx) == CheckDeeplink(c.(pending := Some(Deeplink(templatesUrl))), env))
      && (t == TemplatesShortcut ==> c1.tabBar == Some(Select(tb, 1)))
      && (t == FillPhone || t == Transfer ==> c1.tabBar == c.tabBar && fx == [External(PushForceTouch(t))])
      && (t == PushNotificationDetail ==> c1.tabBar == c.tabBar && fx == [External(OpenPushDetail)])
      && (t.OtherShortcut? ==> c1.tabBar == c.tabBar && fx == [])
  {
  }

  /** A deep link with the landing toggle off behaves exactly like one to
      the main screen. */
  lemma LandingWithToggleOffIsMain(c: Coordinator, env: Env, landingUrl: Url, mainUrl: Url, id: string)
    requires !env.landingToggle
    requires env.linkType(landingUrl) == Landing(id) && env.linkType(mainUrl) == Main
    ensures CheckDeeplink(c.(pending := Some(Deeplink(landingUrl))), env)
         == CheckDeeplink(c.(pending := Some(Deeplink(mainUrl))), env)
  {
  }

  /** With the toggle on, a landing id the service does not know does
      nothing at all beyond consuming the action. */
  lemma UnknownLandingDoesNothing(c: Coordinator, env: Env, url: Url, id: string)
    requires env.landingToggle && env.linkType(url) == Landing(id)
    requires forall i :: 0 <= i < |env.landings| ==> env.landings[i].landingId != id
    ensures var c0 := c.(pending := Some(Deeplink(url)));
      CheckDeeplink(c0, env) == (c.(pending := None), [])
  {
  }

  /** A shortcut type outside the table does nothing beyond consuming it. */
  lemma UnknownShortcutDoesNothing(c: Coordinator, env: Env, code: int)
    ensures CheckDeeplink(c.(pending := Some(ForceTouch(OtherShortcut(code)))), env)
         == (c.(pending := None), [])
  {
  }

  /** The landing completion: `.close` pops one screen off the tab the
      landing was opened on (if that tab still exists). */
  function OnLandingCompleted(c: Coordinator, tab: nat, result: LVM.PromoViewingResult): (r: Coordinator)
    ensures r.pending == c.pending
    ensures c.tabBar.Some? && tab < |c.tabBar.value.tabs| ==>
      r.tabBar == Some(c.tabBar.value.(tabs := c.tabBar.value.tabs[tab := PopOne(c.tabBar.value.tabs[tab])]))
    ensures !(c.tabBar.Some? && tab < |c.tabBar.value.tabs|) ==> r == c
  {
    match result
    case Close =>
      if c.tabBar.Some? && tab < |c.tabBar.value.tabs| then
        var tb := c.tabBar.value;
        c.(tabBar := Some(tb.(tabs := tb.tabs[tab := PopOne(tb.tabs[tab])])))
      else c
  }

  /** The landing view `DynamicPromoLandingCoordinator.start` pushes. */
  const LandingScreen: Screen := OtherScreen("DynamicPromoLandingView")

  /** The landing coordinator's push, applied to the navigation controller
      of the tab the landing was opened on (if that tab still exists). */
  function PushLanding(c: Coordinator, tab: nat): (r: Coordinator)
    ensures r.pending == c.pending
    ensures c.tabBar.Some? && tab < |c.tabBar.value.tabs| && c.tabBar.value.tabs[tab].NavigationTab? ==>
      && r.tabBar.Some? && r.tabBar.value.selected == c.tabBar.value.selected
      && |r.tabBar.value.tabs| == |c.tabBar.value.tabs|
      && r.tabBar.value.tabs[tab] == NavigationTab(c.tabBar.value.tabs[tab].stack + [LandingScreen])
      && forall i :: 0 <= i < |c.tabBar.value.tabs| && i != tab ==> r.tabBar.value.tabs[i] == c.tabBar.value.tabs[i]
    ensures !(c.tabBar.Some? && tab < |c.tabBar.value.tabs| && c.tabBar.value.tabs[tab].NavigationTab?) ==> r == c
  {
    if c.tabBar.Some? && tab < |c.tabBar.value.tabs| && c.tabBar.value.tabs[tab].NavigationTab? then
      var tb := c.tabBar.value;
      c.(tabBar := Some(tb.(tabs := tb.tabs[tab := NavigationTab(tb.tabs[tab].stack + [LandingScreen])])))
    else c
  }

  /** Closing a landing undoes its push: on a navigation tab with a root
      screen, push then close gives back the coordinator unchanged. */
  lemma PushThenCloseRestores(c: Coordinator, tab: nat)
    requires c.tabBar.Some? && tab < |c.tabBar.value.tabs|
    requires c.tabBar.value.tabs[tab].NavigationTab? && c.tabBar.value.tabs[tab].stack != []
    ensures OnLandingCompleted(PushLanding(c, tab), tab, LVM.Close) == c
  {
    var tb := c.tabBar.value;
    var s := tb.tabs[tab].stack;
    var pushed := PushLanding(c, tab).tabBar.value;
    assert (s + [LandingScreen])[..|s|] == s;
    assert PopOne(pushed.tabs[tab]) == tb.tabs[tab];
    assert pushed.tabs[tab := tb.tabs[tab]] == tb.tabs;
  }

  /** A started landing flow, seen from the tab it was opened on: the
      coordinator pushes the landing, the user's close goes through the
      view model and the relay to the tab bar's completion, and that pops
      the landing, giving back the coordinator as it was. */
  lemma LandingFlowRestores(c: Coordinator, l: LVM.LandingData, tab: nat, parse: string -> Option<Url>)
    requires c.tabBar.Some? && tab < |c.tabBar.value.tabs|
    requires c.tabBar.value.tabs[tab].NavigationTab? && c.tabBar.value.tabs[tab].stack != []
    ensures var flow := LandingFlow(l);
      var (vmOpt, startFx) := LC.Start(flow, true);
      startFx == [LC.PushModuleView(true)] &&
      var c2 := PushLanding(c, tab);
      c2.tabBar.value.tabs[tab] == NavigationTab(c.tabBar.value.tabs[tab].stack + [LandingScreen]) &&
      var closeFx := LVM.OnEvent(vmOpt.value, parse, LVM.CloseButtonTap);
      var up := LC.OnModuleCompleted(flow, closeFx[0].result);
      up == [LC.Complete(LandingCompletion, LVM.Close)] &&
      OnLandingCompleted(c2, tab, up[0].result) == c
  {
    PushThenCloseRestores(c, tab);
  }

  /** A landing opened from a deep link: the link only clears the pending
      slot and starts the flow for the first landing with that id on the
      selected tab; the landing is pushed on top of that tab's stack, and
      closing it by the user gives back exactly the stack it was opened on,
      with the selection and every other tab unchanged. */
  lemma LandingCloseChain(c: Coordinator, env: Env, url: Url, id: string,
                          parse: string -> Option<Url>)
    requires env.landingToggle && env.linkType(url) == Landing(id)
    requires c.tabBar.Some? && RootAvailable(c.tabBar.value)
    requires FindLanding(env.landings, id).Some?
    ensures CheckDeeplink(c.(pending := Some(Deeplink(url))), env) ==
      (c.(pending := None),
       [StartLandingFlow(LandingFlow(FindLanding(env.landings, id).value), c.tabBar.value.selected)])
    ensures var tab := c.tabBar.value.selected;
      var flow := LandingFlow(FindLanding(env.landings, id).value);
      var c1 := c.(pending := None);
      var (vmOpt, startFx) := LC.Start(flow, true);
      startFx == [LC.PushModuleView(true)] &&
      var c2 := PushLanding(c1, tab);
      c2.tabBar.value.tabs[tab] == NavigationTab(c.tabBar.value.tabs[tab].stack + [LandingScreen]) &&
      var closeFx := LVM.OnEvent(vmOpt.value, parse, LVM.CloseButtonTap);
      var up := LC.OnModuleCompleted(flow, closeFx[0].result);
      up == [LC.Complete(LandingCompletion, LVM.Close)] &&
      OnLandingCompleted(c2, tab, up[0].result) == c1
  {
    LandingFlowRestores(c.(pending := None), FindLanding(env.landings, id).value, c.tabBar.value.selected, parse);
  }
}
